=== FILE: README.md ===
# go_chat core, modelled in Dafny

This project models the core of go_chat, a small chat server with accounts, rooms, room
memberships and room messages, and a websocket that relays new messages to connected
members. The model has four parts:

- **The store.** There are five tables: users, auths, rooms, room memberships and room
  messages. Each table is a sequence of rows in insertion order, and the store also holds an
  id counter and a logical clock. The sqlc queries (`room.sql.go`, `user.sql.go`) are pure
  functions over this store (`RoomSql`, `UserSql`). The room repository maps rows to records
  (`RoomRepository`). The room service adds the capacity rule and the creator's implicit
  membership (`RoomService`), which the service tests state.
- **The HTTP handlers.** There are handlers for rooms (`RoomHandlers`), for sign-up and
  sign-in (`AuthHandlers`) and for the account endpoints (`UserHandlers`). Each handler is one
  atomic transition: it either answers with a result and a new store, or with an `ApiError`
  (HTTP status and message) and no change.
- **The websocket read loop** (`Session`). One turn looks up the authenticated sender's
  membership of the frame's room, persists the message, then broadcasts it. The first error
  is reported once and ends the loop.
- **The broadcast** (`Fanout`). It writes the message to every member of the room who is
  connected, in member-list order, the sender included. It stops at the first failed write.

Store failures are injected: every query has a tag (`Query`), and a query whose tag is in
the `Faults` set of a call fails with a store error. `NoRows` is pgx's `ErrNoRows`. Ids are
natural numbers handed out by `Db.nextId`, starting at 1. The zero id `NilId` stands for the
zero UUID that an empty or malformed id string converts to. Time is the store's logical
clock. Hashing, password comparison and token signing are parameters (`AuthHandlers.Crypto`).

The room service and part of the room repository are not given in the source, so some
behaviour is inferred from how the rest of the code uses it:

- the membership lookup by user and room: from its callers, which read `ErrNoRows` as
  "not a member" (app/api/rooms/handlers.go:317-337, app/websocket/client.go:36-43);
- the member count: from the service test;
- the capacity rule ("max room members reached" once the room's membership rows reach
  `max_members`);
- the room creator becoming its first member: from the service test.

Some handlers do not do what the surrounding code and tests evidently expect. Each of these
is modelled twice: `…AsWritten` follows the code, and the plain name is the corrected
definition the rest of the model uses (see "## Findings").

## Model

| member | source | states |
|---|---|---|
| RoomSql.CreateRoom | internal/db/data-source/room.sql.go:16-45 | inserting a room appends exactly one row with a fresh id, the given fields and equal created/updated stamps; nothing else in the store changes; it fails only on a store fault |
| RoomSql.CreateRoomMember | internal/db/data-source/room.sql.go:47-68 | inserting a membership appends one row with a fresh id, the given room and user; nothing else changes |
| RoomSql.CreateRoomMessage | internal/db/data-source/room.sql.go:70-99 | inserting a message appends one row with a fresh id, the given room, membership, user and content; nothing else changes |
| RoomSql.DeleteRoom | internal/db/data-source/room.sql.go:101-108 | deleting by id keeps exactly the rooms with another id; deleting an absent id changes nothing and is not an error |
| RoomSql.DeleteRoomMember | internal/db/data-source/room.sql.go:110-117 | deleting by id keeps exactly the memberships with another id; an absent id changes nothing |
| RoomSql.DeleteRoomMessage | internal/db/data-source/room.sql.go:119-126 | deleting by id keeps exactly the messages with another id; an absent id changes nothing |
| RoomSql.Single | internal/db/data-source/room.sql.go:132-145 | a `:one` query with no row fails with `NoRows`, otherwise it yields the row |
| RoomSql.GetRoom | internal/db/data-source/room.sql.go:128-145 | the lookup yields a stored room with that id; it is `NoRows` exactly when no room has the id, and a store error only on a fault |
| RoomSql.GetRoomMember | internal/db/data-source/room.sql.go:147-162 | yields a stored membership with that id; `NoRows` exactly when none has it |
| RoomSql.GetRoomMessage | internal/db/data-source/room.sql.go:199-216 | yields a stored message with that id; `NoRows` exactly when none has it |
| RoomSql.GetRoomMembers | internal/db/data-source/room.sql.go:164-197 | the listing holds exactly the memberships that pass each given filter (an absent filter matches every row); in a valid store it is in ascending id order, so in store order and without repeats; with no filter it is the whole table |
| RoomSql.GetRoomMessages | internal/db/data-source/room.sql.go:218-257 | the listing holds exactly the messages that pass the room, membership and user filters; in a valid store it is in ascending id order; with no filter it is the whole table |
| RoomSql.GetRooms | internal/db/data-source/room.sql.go:259-289 | the listing holds exactly the rooms created by the given user, or all rooms when none is given; in a valid store it is in ascending id order |
| RoomSql.UpdateRoom | internal/db/data-source/room.sql.go:291-313 | the row with the id gets the new name, description, capacity and stamp; every other row and table is unchanged; an absent id changes nothing |
| RoomSql.CreateRoomKeepsValid | internal/db/data-source/room.sql.go:16-45 | a room insert preserves the store invariant (ascending unique ids below the counter, stamps before the clock) |
| RoomSql.CreateRoomMemberKeepsValid | internal/db/data-source/room.sql.go:47-68 | a membership insert preserves the store invariant |
| RoomSql.CreateRoomMessageKeepsValid | internal/db/data-source/room.sql.go:70-99 | a message insert preserves the store invariant |
| RoomSql.DeletesKeepValid | internal/db/data-source/room.sql.go:101-126 | the three deletes preserve the store invariant |
| RoomSql.UpdateRoomKeepsValid | internal/db/data-source/room.sql.go:291-313 | an update stamped before the clock preserves the store invariant |
| RoomSql.UpdateRoomThenLookup | internal/db/data-source/room.sql.go:291-313 | after the update, the first row with the updated id is the old row carrying exactly the four new values |
| RoomSql.DeleteThenGet | internal/db/data-source/room.sql.go:101-162 | after a delete by id, the lookup by that id answers `NoRows`, for rooms, memberships and messages |
| RoomSql.DeleteRoomMemberExactlyOne | internal/db/data-source/room.sql.go:110-117 | in a valid store, deleting the i-th membership's id removes exactly that row and keeps the others in order |
| RoomSql.CreateThenGetRoomMessage | internal/db/data-source/room.sql.go:70-99 | a message read back by the id its insert returned is the row that was inserted |
| RoomSql.ScanGrows | internal/db/data-source/room.sql.go:164-197 | filtering the memberships after rows are appended is the old listing followed by the new rows' matches |
| UserSql.CreateUser | internal/data/db/user.sql.go:15-37 | a user insert appends one row with a fresh id and the given names and email; nothing else changes |
| UserSql.DeleteUser | internal/data/db/user.sql.go:39-46 | deleting by id keeps exactly the users with another id |
| UserSql.FirstIdOrEmail | internal/data/db/user.sql.go:48-51 | the first user whose id or email matches; none exactly when no row matches either |
| UserSql.GetUser | internal/data/db/user.sql.go:48-70 | the lookup yields a stored user whose id or email matches; `NoRows` exactly when no row matches either |
| UserSql.GetUsers | internal/data/db/user.sql.go:72-101 | the listing is the users table in store order |
| UserSql.CreateUserThenGetUsers | internal/data/db/user.sql.go:72-101 | after a user is created, the listing is the earlier listing followed by the new user's row |
| UserSql.UpdateUser | internal/data/db/user.sql.go:103-126 | the row with the id gets the new names, email and stamp; other rows and tables are unchanged |
| UserSql.CreateAuth | internal/db/repositories/auth_repository.go:22-41 | a credentials insert appends one row for the user with the given password hash; nothing else changes |
| UserSql.GetUserAuth | internal/db/repositories/auth_repository.go:43-61 | yields a stored credentials row of that user; `NoRows` exactly when the user has none |
| UserSql.CreateUserKeepsValid | internal/data/db/user.sql.go:15-37 | a user insert preserves the store invariant |
| UserSql.CreateAuthKeepsValid | internal/db/repositories/auth_repository.go:22-41 | a credentials insert preserves the store invariant |
| UserSql.DeleteUserKeepsValid | internal/data/db/user.sql.go:39-46 | a user delete preserves the store invariant |
| UserSql.UpdateUserKeepsValid | internal/data/db/user.sql.go:103-126 | a user update stamped before the clock preserves the store invariant |
| UserSql.GetUserAfterDelete | internal/data/db/user.sql.go:39-70 | after deleting a user, a lookup by its id and an email no other user has answers `NoRows`, and every other user is kept |
| UserSql.FirstIdOrEmailAppend | internal/data/db/user.sql.go:48-70 | appending a row changes the lookup only when nothing earlier matched |
| RoomRepository.CreateRoom | internal/db/repositories/room_repository.go:22-42 | the record written back carries the inserted row's id and stamps and keeps the requested capacity as given; only the stored row narrows the capacity to 32 bits (`Int32`); the rooms table grows by that row |
| RoomRepository.ToRoomAsWritten | internal/db/repositories/room_repository.go:55-62 | the record built from a row has capacity 0 and matches the full mapping otherwise |
| RoomRepository.ToRoom | internal/db/repositories/room_repository.go:55-62 | the record carries every column of the row, capacity included |
| RoomRepository.GetRoomAsWritten | internal/db/repositories/room_repository.go:44-63 | a room read through the repository always has capacity 0 |
| RoomRepository.GetRoom | internal/db/repositories/room_repository.go:44-63 | the room read is the full record of the stored row with that id; `NoRows` exactly when none has it |
| RoomRepository.GetRoomsAsWritten | internal/db/repositories/room_repository.go:65-96 | the listing maps the filtered rows one to one and in order, each record carrying every column of its row except the capacity, which is 0 |
| RoomRepository.GetRooms | internal/db/repositories/room_repository.go:65-96 | the listing holds exactly the full records of the rooms passing the creator filter; unfiltered, it maps the table one to one in order |
| RoomRepository.DeleteRoom | internal/db/repositories/room_repository.go:98-105 | keeps exactly the rooms with another id and nothing else changes |
| RoomRepository.UpdateRoom | internal/db/repositories/room_repository.go:107-121 | the clock ticks and the record is stamped with the new time; the row with the record's id takes its name, description, capacity narrowed to 32 bits and stamp; every other row and table is unchanged |
| RoomRepository.CreateRoomMember | internal/db/repositories/room_repository.go:123-142 | the membership written back carries the inserted row's id and stamps; the table grows by that row |
| RoomRepository.GetRoomMember | internal/db/repositories/room_repository.go:144-162 | the membership read has the id and comes from a stored row |
| RoomRepository.GetRoomMembers | internal/db/repositories/room_repository.go:169-206 | the records are the filtered rows mapped one to one in order |
| RoomRepository.DeleteRoomMember | internal/db/repositories/room_repository.go:208-215 | keeps exactly the memberships with another id and nothing else changes |
| RoomRepository.RoomMembersContents | internal/db/repositories/room_repository.go:169-206 | the memberships listed for a room are exactly the records of the room's rows |
| RoomRepository.RoomMessagesContents | internal/db/repositories/room_repository.go:268-311 | the messages listed for a room are exactly the records of the room's message rows |
| RoomRepository.GetRoomMemberByWhere | app/api/rooms/handlers.go:317-337 | the membership found is a stored one of that user in that room; `NoRows` exactly when the user holds no membership of the room, which is what the join handler's `ErrNoRows` branch here and the message loop at app/websocket/client.go:36-43 rely on |
| RoomRepository.GetRoomMemberCount | internal/services/room_service_test.go:114-118 | the count is the number of membership rows of the room |
| RoomRepository.CreateRoomMessage | internal/db/repositories/room_repository.go:217-238 | the message written back carries the inserted row's id and stamps; the messages table grows by that row |
| RoomRepository.GetRoomMessage | internal/db/repositories/room_repository.go:240-260 | the message read has the id and comes from a stored row; it fails exactly when the query does |
| RoomRepository.GetRoomMessages | internal/db/repositories/room_repository.go:268-311 | the records are the filtered rows mapped one to one in order |
| RoomRepository.DeleteRoomMessage | internal/db/repositories/room_repository.go:313-320 | keeps exactly the messages with another id and nothing else changes |
| RoomRepository.CreateThenGetRoom | internal/db/repositories/room_repository.go:22-63 | a created room read back by its new id is the record the create returned (corrected read) |
| RoomRepository.GetRoomDropsMaxMembers | internal/db/repositories/room_repository.go:55-62 | a room created with capacity 3 reads back with capacity 0 through the read as written |
| RoomRepository.UpdateRoomAdvances | internal/services/room_service_test.go:145-154 | an update moves the record's updated stamp past the stored one |
| RoomRepository.UpdateThenGetRoom | internal/db/repositories/room_repository.go:107-121 | a room read back after an update is the record the update returned |
| RoomRepository.UpdatedRowFirst | internal/db/repositories/room_repository.go:107-121 | after an update, the first row with the room's id is the stored row carrying the new name, description, capacity and stamp |
| RoomService.Lift | internal/services/room_service.go:9-21 | a store result passes through the service unchanged, its error wrapped |
| RoomService.CreateRoom | internal/services/room_service_test.go:99-128 | creating a room also adds exactly one membership, the creator's in the new room, and no capacity check applies; users, credentials and messages are unchanged |
| RoomService.JoinRoom | internal/services/room_service_test.go:156-189 | a join succeeds only below the room's capacity and then adds the membership; it fails with the capacity error exactly when the room exists and its membership count has reached `max_members`, and succeeds exactly when the count is below it and no query fails |
| RoomService.LeaveRoom | internal/services/room_service_test.go:191-220 | leaving deletes the membership with that id and nothing else |
| RoomService.CreatorIsOnlyMember | internal/services/room_service_test.go:114-128 | a new room has exactly one member, its creator |
| RoomService.JoinRespectsCapacity | internal/services/room_service_test.go:156-189 | after a successful join the room's count grows by one and is at most its capacity |
| RoomService.LeaveThenJoin | internal/services/room_service_test.go:191-220 | in a full room, after one member leaves, a join succeeds |
| RoomHandlers.FindRoom | app/api/rooms/handlers.go:302-314 | the room lookup answers 404 exactly when the store says `NoRows`, and a 500 on other errors |
| RoomHandlers.FindMembership | app/api/rooms/handlers.go:390-402 | a found membership is the caller's in the room; 400 "not a member of room" exactly when there is none |
| RoomHandlers.GetRoom | app/api/rooms/handlers.go:20-61 | only a member reads the room, and reads the stored record; a non-member gets 401; the request succeeds exactly when the caller is a member of an existing room and neither lookup fails; the code as written answers the same record with capacity 0 |
| RoomHandlers.GetRooms | app/api/rooms/handlers.go:63-89 | lists every room in store order; it fails only on a store fault; the code as written answers the same list with every capacity 0 |
| RoomHandlers.CreateRoom | app/api/rooms/handlers.go:97-151 | the caller's room is stored with the requested fields and the caller as creator and first member; users, credentials and messages are unchanged |
| RoomHandlers.CreatorRoom | app/api/rooms/handlers.go:153-195 | the checks shared by delete and update: a non-member, or a member who did not create the room, gets 401 |
| RoomHandlers.DeleteRoomAsWritten | app/api/rooms/handlers.go:153-212 | the delete as written leaves the rooms table as it was |
| RoomHandlers.DeleteRoomAsWrittenKeepsRoom | app/api/rooms/handlers.go:197 | after a successful delete as written, the room still reads back unchanged |
| RoomHandlers.DeleteRoom | app/api/rooms/handlers.go:153-212 | the creator's delete removes exactly the room's row and nothing else; it succeeds exactly when the caller is a member and the creator of an existing room and no query fails |
| RoomHandlers.DeleteRoomRemovesRoom | app/api/rooms/handlers.go:153-212 | after the corrected delete, reading the room answers `NoRows` |
| RoomHandlers.MergeRoom | app/api/rooms/handlers.go:274-282 | present update fields overwrite the room's, absent ones keep it, and no other field moves |
| RoomHandlers.UpdateRoomAsWritten | app/api/rooms/handlers.go:220-285 | the update as written answers an empty success with no room and leaves the store as it was; non-members and non-creators get 401 |
| RoomHandlers.UpdateRoomAsWrittenLosesUpdate | app/api/rooms/handlers.go:274-284 | after a successful update as written, a later read sees the old room |
| RoomHandlers.UpdateRoom | app/api/rooms/handlers.go:220-285 | the creator's update answers the merged room with a fresh stamp; only the rooms table and the clock change; non-members and non-creators get 401; it succeeds exactly when the caller is a member and the creator of an existing room and no query fails |
| RoomHandlers.UpdateRoomPersists | app/api/rooms/handlers.go:220-285 | after the corrected update, the room reads back as the merged record with a later stamp |
| RoomHandlers.JoinRoomAsWritten | app/api/rooms/handlers.go:287-358 | as written, a caller who is already a member of an existing room gets 401 and the 406 is never produced |
| RoomHandlers.JoinRoomAsWrittenRejectsMemberWith401 | app/api/rooms/handlers.go:317-337 | for a caller already in the room, the join as written answers 401 while the corrected join answers 406 "already a member" |
| RoomHandlers.JoinRoom | app/api/rooms/handlers.go:287-358 | 404 exactly when the room is missing; 406 for an existing member; a success is a non-member joining a room below its capacity, and answers the caller's new membership of the room; such a join succeeds whenever no query fails |
| RoomHandlers.JoinRoomAddsOneMembership | app/api/rooms/handlers.go:340-356 | a successful join adds exactly one membership, the caller's in that room, and changes nothing else |
| RoomHandlers.JoinFullRoomFails | app/api/rooms/handlers.go:340-347 | a join into a full room fails with "max room members reached" |
| RoomHandlers.LeaveRoom | app/api/rooms/handlers.go:360-424 | 404 exactly when the room is missing; 400 for a non-member; on success one membership of the caller in that room is removed, every other row is kept and no other table changes |
| RoomHandlers.LeaveRoomRemovesOneRow | app/api/rooms/handlers.go:360-424 | a member of an existing room can leave it; in a valid store the leave removes exactly one row, one of the caller's memberships of the room, and keeps every message |
| RoomHandlers.GetRoomMembersAsWritten | app/api/rooms/handlers.go:426-504 | as written, every listed membership is the caller's own |
| RoomHandlers.GetRoomMembersAsWrittenHidesOthers | app/api/rooms/handlers.go:476-479 | in a room with two members, the listing as written shows only the caller's membership |
| RoomHandlers.GetRoomMembers | app/api/rooms/handlers.go:426-504 | a member gets exactly the room's memberships, in store order; 404 for a missing room and 400 for a non-member; it succeeds exactly when the caller is a member of an existing room and no query fails |
| RoomHandlers.GetRoomMessages | app/api/rooms/handlers.go:506-583 | a member gets exactly the records of the room's messages, in store order; 404 for a missing room and 400 for a non-member; it succeeds exactly when the caller is a member of an existing room and no query fails |
| AuthHandlers.Lower | app/api/auth/handlers.go:42 | lowering maps each ASCII capital to its small letter, keeps other characters, and leaves no capital |
| AuthHandlers.LowerIdempotent | app/api/auth/handlers.go:150 | lowering an already lowered email changes nothing |
| AuthHandlers.SignUp | app/api/auth/handlers.go:28-129 | the email is lowered and looked up exactly; one already in use gets 400 "account already exists"; otherwise the user is stored with the lowered email, the credentials row holds the password's hash, and the token signs the new user's claims; rooms, memberships and messages are unchanged; it succeeds exactly when no user matches the lookup, hashing succeeds and no query fails |
| AuthHandlers.MapError | app/api/auth/handlers.go:72-101 | a store error met when creating the user or the credentials row (and, at lines 170-177, when reading the credentials) is answered 500 with the error's text; a value passes through |
| AuthHandlers.SignIn | app/api/auth/handlers.go:136-200 | a sign-in changes nothing; it succeeds only for a stored user whose credentials match; 404 exactly when no user has the lowered email, and 401 "invalid credential" on a mismatch |
| AuthHandlers.SignUpKeepsEmailsUnique | app/api/auth/handlers.go:44-64 | sign-up keeps users' emails pairwise distinct |
| AuthHandlers.SignedUpUserFound | app/api/auth/handlers.go:150-167 | the sign-in lookup by the lowered email finds exactly the user row sign-up appended |
| AuthHandlers.SignedUpAuthFound | app/api/auth/handlers.go:170-177 | the sign-in credentials lookup finds exactly the row sign-up appended for the new user |
| AuthHandlers.SignUpThenSignIn | app/api/auth/handlers.go:28-200 | signing in with the password just signed up with returns the new user |
| UserHandlers.GetAccount | app/api/users/handlers.go:18-34 | the authenticated user is returned; without one the answer is 401 "unauthorized user" |
| UserHandlers.MergeUser | app/api/users/handlers.go:62-77 | present fields overwrite the account's, a new email is lowered, and absent fields are kept |
| UserHandlers.UpdateAccount | app/api/users/handlers.go:42-106 | only the account owner may update (401 otherwise); the caller's row takes the merged fields and a fresh stamp, and every other row is unchanged; the owner's update succeeds unless the query fails |
| UserHandlers.DeleteAccount | app/api/users/handlers.go:108-151 | only the account owner may delete (401 otherwise); exactly the caller's row is removed; the owner's delete succeeds unless the query fails |
| UserHandlers.UpdateAccountKeepsValid | app/api/users/handlers.go:42-106 | an account update preserves the store invariant |
| UserHandlers.DeleteAccountThenGet | app/api/users/handlers.go:108-151 | after deleting the account, looking it up answers `NoRows` and every other user is kept |
| Fanout.Recipients | app/websocket/client.go:82-84 | the users written to are exactly the members who are connected, each as many times as it holds a membership, the sender included |
| Fanout.Copies | app/websocket/client.go:85 | n copies of a frame |
| Fanout.Deliver | app/websocket/client.go:82-91 | the write loop fails exactly when some recipient's write fails; no connection is added or dropped; a client who is not a recipient receives nothing |
| Fanout.DeliverAppendsCopies | app/websocket/client.go:82-91 | with no failed write, each connected client receives the frame once per time it is a recipient, after what it had |
| Fanout.DeliverWritesOnly | app/websocket/client.go:68-72 | whatever happens, a client's frames only grow by copies of the broadcast frame |
| Fanout.DeliverOnlyCopies | app/websocket/client.go:68-91 | every connected client's frames only grow by copies of the broadcast frame |
| Fanout.NoCopies | app/websocket/client.go:75-80 | a loop that writes nothing leaves every client's frames as they were |
| Fanout.DeliverStopsAtFirstFailure | app/websocket/client.go:85-88 | the first failed write ends the loop: the result is what the earlier writes produced, and later recipients get nothing |
| Fanout.Broadcast | app/websocket/client.go:67-92 | the frame is attributed to the sender; a failed member-list fetch writes nothing and reports the store error; otherwise the only error it can report is a write error; every connected client's frames only grow by copies of that frame |
| Fanout.BroadcastRecipients | app/websocket/client.go:67-92 | with no failed write, each connected client receives the frame exactly once per membership it holds in the room, so non-members get nothing and a member sender gets their own frame |
| Fanout.BroadcastFailsIff | app/websocket/client.go:82-91 | with the member list fetched, the broadcast reports a write error exactly when a connected member of the room has a broken connection |
| Fanout.OccurrencesOfRows | internal/db/repositories/room_repository.go:169-206 | counting a user's memberships in the mapped listing is counting their rows |
| Session.Step | app/websocket/client.go:27-63 | a read error stops with nothing changed; a non-member of the frame's room stops with nothing changed; a changed store is exactly one appended message from the authenticated sender through their membership of that room; fanout happens only after the message is saved; only the sender-attributed frame is written |
| Session.Session | app/websocket/client.go:24-65 | the loop never adds or drops connections or touches users, rooms or memberships, and appends at most one message per frame |
| Session.SenderAppendedTrans | app/websocket/client.go:27-63 | appending the sender's messages twice appends the sender's messages |
| Session.StepSenderAppended | app/websocket/client.go:45-55 | one turn only appends messages whose user is the authenticated sender |
| Session.SessionAppendsSenderMessages | app/websocket/client.go:24-65 | a whole session keeps the earlier messages and appends only messages from the authenticated sender |
| Session.Run | app/websocket/client.go:24-65 | the loop reports exactly one error on the channel and ends in the state the loop specification gives |
| Session.InboundUserIgnored | app/websocket/client.go:36-50 | the `user_id` in an inbound frame has no effect on the turn |
| Session.StepDelivers | app/websocket/client.go:36-63 | a turn without faults persists the message and writes it to each connected member once per membership, sender included, then goes round again |
| Session.StepWriteFailureStops | app/websocket/client.go:57-62 | a turn whose broadcast meets a connected room member's broken connection stops the loop with the write error, and the saved message stays |
| Session.StepPersistFailureWritesNothing | app/websocket/client.go:51-55 | a failure saving the message stops the loop before any write and leaves the store as it was |
| Session.StepMemberListFailureWritesNothing | app/websocket/client.go:75-80 | a failure fetching the member list keeps the saved message, writes nothing and stops the loop |

## Left out

- Concurrency is not modelled: the handler's client registry is shared by goroutines and guarded by a mutex. The lock taken around `broadcast` in `run` is never released when `broadcast` fails. With one loop per turn there is nothing to interleave.
- The websocket handshake, authentication of the upgrade request, and adding and removing clients in the registry are not modelled. The registry is an input of the loop, and its set of connections is fixed during a session.
- JSON encoding and decoding is left out. A frame that fails to decode is a read error, like a closed connection (`Frame.read == None`).
- Malformed UUID strings are left out. Ids are numbers, and the zero UUID an empty or malformed string converts to is `NilId`. 
- Password hashing, comparison and JWT signing are the `Crypto` parameter. Token expiry and the authenticator middleware are left out: the caller of each handler is given.
- The missing `user` context key is not modelled: handlers answer it with a 500 "internal server error", and the caller is always given. `UserHandlers.GetAccount` models the 401 for a missing authenticated user.
- DTO validation is not modelled. The DTOs carry `validate` tags, but gin's `BindJSON` checks only `binding` tags, so no validation takes place. This includes the `gt=0` tag on `max_members` (app/api/rooms/handlers.go:94, 217): a room may be created or updated with any capacity.
- Database transactions are not modelled (`tx` arguments, commit and rollback). Each handler is atomic: a failed handler leaves the store as it was. The websocket loop is not atomic: a message saved before a failed broadcast stays.
- The error middleware's JSON envelope is left out. Handlers return the status and message it would render.
- `UpdateUserAuth` is left out: nothing in the modelled core calls it.
- The service methods in `internal/services/room_service.go` are stubs in the source. The capacity rule, the creator's membership and `GetRoomMemberCount` are defined from `room_service_test.go` and `rooms_test.go`. `GetRoomMemberByWhere` is not defined in the source at all; its meaning (the membership of that user in that room, `ErrNoRows` when there is none) is inferred from how its callers treat `ErrNoRows`, not taken from a test.
- The SQL text of the credentials queries is not part of this model. `UserSql.CreateAuth` and `UserSql.GetUserAuth` follow the credentials repository.
- AuthHandlers.Lower: lowers ASCII capitals only, where Go's `strings.ToLower` also folds non-ASCII letters.
- RoomHandlers.JoinFullRoomFails: the capacity error is answered with status 500, as the handler maps every join failure. `rooms_test.go` expects 401 for it, which the handler code does not produce.
- RoomRepository.CreateRoom: `Room.maxMembers` is an unbounded integer where Go uses `int`; the narrowing to `int32` on the way to the store is modelled (`Int32`), the 64-bit width of `int` is not.
- RoomRepository.GetRoomMembers: the repository scans each optional `*string` filter into a `pgtype.UUID`. The model assumes that an absent filter becomes SQL NULL (match all) and a present one the id. That is pgx's behaviour only if its `UUID.Scan` accepts a `*string`; pgx is not part of this model. If the scan rejects a `*string`, every listing through the repository fails, and every broadcast with it.
- RoomRepository.GetRooms: the repository takes the creator as a plain string and scans it into a `pgtype.UUID`, so it has no way to ask for all rooms. The optional creator, with `None` listing every room, follows the service test's `GetRooms(nil, nil)` (internal/services/room_service_test.go:131-143). The scan failure for a malformed creator string is not modelled.
- RoomRepository.GetRoomsAsWritten: the same optional creator as `RoomRepository.GetRooms`, following the service test rather than the repository's plain-string parameter; the scan failure is not modelled.
- RoomRepository.GetRoomMessages: the same assumption about scanning the optional `*string` filters into `pgtype.UUID`.
- RoomHandlers.GetRoom: reads through the corrected repository read, so it answers the stored `max_members`; the code as written answers 0 (the last row of "## Findings"). Its contract relates the two answers.
- RoomHandlers.GetRooms: lists through the corrected repository listing, so it answers the stored capacities; the code as written answers 0 for every room. Its contract relates the two answers.
- Wall-clock time is replaced by the store's logical clock. Every insert and update ticks it, so "later" is "larger".

## Findings

| source | as written | input that shows it | evidently intended | confidence | as-written member | corrected member |
|---|---|---|---|---|---|---|
| app/api/rooms/handlers.go:317-337 | a found membership comes back with a nil error, which passes the "not `ErrNoRows`" test and is answered 401 "unauthorized"; the 406 branch is unreachable | a member of an existing room joins it again | 406 "already a member" | not executed | RoomHandlers.JoinRoomAsWritten | RoomHandlers.JoinRoom |
| app/api/rooms/handlers.go:197 | `deleteRoom` deletes the room message whose id is the room id | the creator of a room deletes it; the room still reads back | the room row is deleted | not executed | RoomHandlers.DeleteRoomAsWrittenKeepsRoom | RoomHandlers.DeleteRoomRemovesRoom |
| app/api/rooms/handlers.go:274-284 | `updateRoom` merges the fields into the record it read and returns without saving it or writing a response | the creator renames a room; a later read shows the old name | the merged room is saved | not executed | RoomHandlers.UpdateRoomAsWrittenLosesUpdate | RoomHandlers.UpdateRoomPersists |
| app/api/rooms/handlers.go:476-479 | `getRoomMembers` filters the listing by the caller's user id as well as the room | room 1 with memberships of users 2 and 5; user 2 lists the members and sees only themself | every membership of the room | not executed | RoomHandlers.GetRoomMembersAsWrittenHidesOthers | RoomHandlers.GetRoomMembers |
| internal/db/repositories/room_repository.go:55-62 | the record built from the row omits `MaxMembers`, so every room reads back with capacity 0 (the same at lines 84-91 for listings) | create a room with capacity 3 and read it back | the stored capacity | not executed | RoomRepository.GetRoomDropsMaxMembers | RoomRepository.CreateThenGetRoom |

=== FILE: api_errors.dfy ===
/** The error a handler answers with: an HTTP status class and the response message. */
module ApiErrors {
  import opened Db

  datatype Status = BadRequest | Unauthorized | NotFound | NotAcceptable | InternalError

  datatype ApiError = ApiError(status: Status, message: string)

  const UnauthorizedText := "unauthorized"
  const NotFoundText := "not found"
  const InternalText := "internal server error"

  /** The text of a store error, as `err.Error()` reports it. */
  function DbErrorText(e: DbError): string {
    match e
    case NoRows => "no rows in result set"
    case StoreError => "store error"
  }

  /** A store error surfaced as a 500 with its own text. */
  function Internal(e: DbError): ApiError {
    ApiError(InternalError, DbErrorText(e))
  }
}

=== FILE: auth_handlers.dfy ===
/** Sign-up and sign-in. Password hashing, password comparison and token signing are
    left uninterpreted: they are the fields of a `Crypto` value the caller supplies. */
module AuthHandlers {
  import opened Wrappers
  import opened Seqs
  import opened Db
  import UserSql
  import opened Models
  import opened ApiErrors

  /** The primitives the handlers call but the model does not look into. `hash` may fail
      (`None`); `matches(password, hash)` is the password check. */
  datatype Crypto = Crypto(hash: string -> Option<string>, matches: (string, string) -> bool, sign: Claims -> string)

  /** ASCII lower-casing of one character. */
  function LowerChar(c: char): char {
    if 'A' <= c <= 'Z' then (c as int + 32) as char else c
  }

  /** `strings.ToLower` on the ASCII range: upper-case letters become lower-case, every
      other character is kept, and the length is unchanged. */
  function Lower(s: string): (r: string)
    ensures |r| == |s|
    ensures forall i :: 0 <= i < |s| ==> r[i] == LowerChar(s[i])
    ensures forall i :: 0 <= i < |r| ==> !('A' <= r[i] <= 'Z')
    ensures forall i :: 0 <= i < |s| && !('A' <= s[i] <= 'Z') ==> r[i] == s[i]
  {
    seq(|s|, i requires 0 <= i < |s| => LowerChar(s[i]))
  }

  /** Lower-casing twice is lower-casing once, so a stored email is already normalised. */
  lemma LowerIdempotent(s: string)
    ensures Lower(Lower(s)) == Lower(s)
  {
  }

  datatype SignupDto = SignupDto(firstName: string, lastName: string, email: string, password: string)
  datatype SigninDto = SigninDto(email: string, password: string)

  /** A signed-in user: the record, the claims the token was signed over, the token, and the store. */
  datatype Signed = Signed(user: User, claims: Claims, token: string, db: Db)

  const AccountExists400 := ApiError(BadRequest, "account already exists")
  const UserNotFound404 := ApiError(NotFound, "user not found")
  const InvalidCredential401 := ApiError(Unauthorized, "invalid credential")

  /** Whether some stored user has this email. */
  predicate EmailTaken(db: Db, email: string) {
    exists i :: 0 <= i < |db.users| && db.users[i].email == email
  }

  /** `signUp`: lowercases the email, refuses an email already registered, then creates
      the user and the auth row holding the password hash, and signs a token over the
      new user's id and email. */
  function SignUp(db: Db, f: Faults, crypto: Crypto, dto: SignupDto): (r: Result<Signed, ApiError>)
    ensures r.Success? ==>
      var u := r.value.user;
      && !EmailTaken(db, Lower(dto.email))
      && u.email == Lower(dto.email) && u.firstName == dto.firstName && u.lastName == dto.lastName
      && crypto.hash(dto.password).Some?
      && r.value.db.users == db.users + [UserRow(u.id, dto.firstName, dto.lastName, Lower(dto.email), u.createdAt, u.updatedAt)]
      && |r.value.db.auths| == |db.auths| + 1
      && r.value.db.auths[..|db.auths|] == db.auths
      && r.value.db.auths[|db.auths|].userId == u.id
      && r.value.db.auths[|db.auths|].password == crypto.hash(dto.password).value
      && r.value.claims == Claims(u.id, u.email)
      && r.value.token == crypto.sign(r.value.claims)
    ensures r.Success? ==> r.value.db.(users := db.users, auths := db.auths, nextId := db.nextId, clock := db.clock) == db
    ensures GetUserQuery !in f && EmailTaken(db, Lower(dto.email)) ==> r == Failure(AccountExists400)
    ensures r.Success? <==>
      && GetUserQuery !in f && CreateUserQuery !in f && CreateAuthQuery !in f
      && (forall i :: 0 <= i < |db.users| ==> db.users[i].id != NilId && db.users[i].email != Lower(dto.email))
      && crypto.hash(dto.password).Some?
  {
    var email := Lower(dto.email);
    match UserSql.GetUser(db, f, NilId, email)
    case Success(_) => Failure(AccountExists400)
    case Failure(StoreError) => Failure(Internal(StoreError))
    case Failure(NoRows) =>
      var created :- MapError(UserSql.CreateUser(db, f, dto.firstName, dto.lastName, email));
      match crypto.hash(dto.password)
      case None => Failure(ApiError(InternalError, InternalText))
      case Some(hash) =>
        var auth :- MapError(UserSql.CreateAuth(created.db, f, created.id, hash));
        var user := User(created.id, created.createdAt, created.updatedAt, dto.firstName, dto.lastName, email);
        var claims := Claims(user.id, user.email);
        Success(Signed(user, claims, crypto.sign(claims), auth.db))
  }

  /** A store error met after the lookups is answered 500 with the error's text. */
  function MapError<T>(r: Result<T, DbError>): (s: Result<T, ApiError>)
    ensures s.Success? <==> r.Success?
    ensures s.Success? ==> s.value == r.value
    ensures s.Failure? ==> s.error.status == InternalError && s.error.message == DbErrorText(r.error)
  {
    match r
    case Success(v) => Success(v)
    case Failure(e) => Failure(Internal(e))
  }

  /** `signIn`: lowercases the email, looks the user up (404 if unknown), checks the
      password against the stored hash (401 if wrong), and signs a token over the user's
      id and email. */
  function SignIn(db: Db, f: Faults, crypto: Crypto, dto: SigninDto): (r: Result<Signed, ApiError>)
    ensures r.Success? ==> r.value.db == db
    ensures r.Success? ==>
      && (exists row :: row in db.users && r.value.user == ToUser(row) && (row.id == NilId || row.email == Lower(dto.email)))
      && (exists a :: a in db.auths && a.userId == r.value.user.id && crypto.matches(dto.password, a.password))
      && r.value.claims == Claims(r.value.user.id, r.value.user.email)
      && r.value.token == crypto.sign(r.value.claims)
    ensures GetUserQuery !in f ==>
      (r == Failure(UserNotFound404) <==> forall i :: 0 <= i < |db.users| ==> db.users[i].id != NilId && db.users[i].email != Lower(dto.email))
    ensures GetUserQuery !in f && GetUserAuthQuery !in f && UserSql.GetUser(db, f, NilId, Lower(dto.email)).Success? ==>
      var row := UserSql.GetUser(db, f, NilId, Lower(dto.email)).value;
      UserSql.GetUserAuth(db, f, row.id).Success? ==>
      (r == Failure(InvalidCredential401) <==> !crypto.matches(dto.password, UserSql.GetUserAuth(db, f, row.id).value.password))
  {
    var email := Lower(dto.email);
    match UserSql.GetUser(db, f, NilId, email)
    case Failure(NoRows) => Failure(UserNotFound404)
    case Failure(StoreError) => Failure(Internal(StoreError))
    case Success(row) =>
      var auth :- MapError(UserSql.GetUserAuth(db, f, row.id));
      if !crypto.matches(dto.password, auth.password) then Failure(InvalidCredential401)
      else
        var user := ToUser(row);
        var claims := Claims(user.id, user.email);
        Success(Signed(user, claims, crypto.sign(claims), db))
  }

  /** No two stored users share an email. */
  predicate EmailsUnique(db: Db) {
    forall i, j :: 0 <= i < j < |db.users| ==> db.users[i].email != db.users[j].email
  }

  /** Sign-up keeps emails unique: it only adds a user whose email nobody has. */
  lemma SignUpKeepsEmailsUnique(db: Db, f: Faults, crypto: Crypto, dto: SignupDto)
    requires EmailsUnique(db) && SignUp(db, f, crypto, dto).Success?
    ensures EmailsUnique(SignUp(db, f, crypto, dto).value.db)
  {
    var users := SignUp(db, f, crypto, dto).value.db.users;
    forall i, j | 0 <= i < j < |users| ensures users[i].email != users[j].email {
      assert users[i] == db.users[i];
      if j < |db.users| {
        assert users[j] == db.users[j];
      }
    }
  }

  /** Signing in right after signing up, with the same email and password, yields the
      account just created and the same token claims, provided the hash verifies the
      password it was made from and no auth row already names an unissued user id. */
  lemma SignUpThenSignIn(db: Db, f: Faults, g: Faults, crypto: Crypto, dto: SignupDto)
    requires Valid(db) && GetUserQuery !in g && GetUserAuthQuery !in g
    requires forall a :: a in db.auths ==> a.userId < db.nextId
    requires SignUp(db, f, crypto, dto).Success?
    requires crypto.hash(dto.password).Some? && crypto.matches(dto.password, crypto.hash(dto.password).value)
    ensures var up := SignUp(db, f, crypto, dto).value;
      var t := SignIn(up.db, g, crypto, SigninDto(dto.email, dto.password));
      t.Success? && t.value.user == up.user && t.value.claims == up.claims
  {
    SignedUpUserFound(db, f, g, crypto, dto);
    SignedUpAuthFound(db, f, g, crypto, dto);
  }

  /** The user row sign-up appended is what the sign-in lookup finds. */
  lemma SignedUpUserFound(db: Db, f: Faults, g: Faults, crypto: Crypto, dto: SignupDto)
    requires Valid(db) && GetUserQuery !in g
    requires SignUp(db, f, crypto, dto).Success?
    ensures var up := SignUp(db, f, crypto, dto).value;
      && |up.db.users| == |db.users| + 1
      && UserSql.GetUser(up.db, g, NilId, Lower(dto.email)) == Success(up.db.users[|db.users|])
      && ToUser(up.db.users[|db.users|]) == up.user
  {
    var up := SignUp(db, f, crypto, dto).value;
    var email := Lower(dto.email);
    var newRow := up.db.users[|db.users|];
    assert up.db.users == db.users + [newRow];
    forall i | 0 <= i < |db.users| ensures !UserSql.IdOrEmail(db.users[i], NilId, email) {
      assert db.users[i] in db.users;
    }
    UserSql.FirstIdOrEmailAppend(db.users, newRow, NilId, email);
    assert [newRow][1..] == [];
  }

  /** The credentials row sign-up appended is what the sign-in lookup finds. */
  lemma SignedUpAuthFound(db: Db, f: Faults, g: Faults, crypto: Crypto, dto: SignupDto)
    requires Valid(db) && GetUserAuthQuery !in g
    requires forall a :: a in db.auths ==> a.userId < db.nextId
    requires SignUp(db, f, crypto, dto).Success?
    ensures var up := SignUp(db, f, crypto, dto).value;
      && |up.db.auths| == |db.auths| + 1
      && UserSql.GetUserAuth(up.db, g, up.user.id) == Success(up.db.auths[|db.auths|])
  {
    var up := SignUp(db, f, crypto, dto).value;
    var created := UserSql.CreateUser(db, f, dto.firstName, dto.lastName, Lower(dto.email)).value;
    assert up.user.id == created.id == db.nextId;
    var newAuth := up.db.auths[|db.auths|];
    assert up.db.auths == db.auths + [newAuth];
    WhereConcat(db.auths, [newAuth], AuthUser, Some(up.user.id));
    WhereNone(db.auths, AuthUser, up.user.id);
    assert [newAuth][1..] == [];
  }
}

=== FILE: db.dfy ===
/** The relational store behind the chat backend: the `users`, `auths`, `rooms`,
    `room_members` and `room_messages` tables as sequences of rows in insertion order,
    plus the server-side id and timestamp generators. */
module Db {
  import opened Wrappers
  import opened Seqs

  /** Row ids are opaque; `NilId` is the all-zero UUID an empty id string parses to. */
  type Id = nat
  const NilId: Id := 0

  /** A logical clock reading; it stands in for the server's wall clock. */
  type Time = nat

  /** The `int32` column type of `max_members`. */
  type int32 = x: int | -0x8000_0000 <= x <= 0x7fff_ffff

  datatype UserRow = UserRow(id: Id, firstName: string, lastName: string, email: string, createdAt: Time, updatedAt: Time)
  datatype AuthRow = AuthRow(id: Id, userId: Id, password: string, createdAt: Time, updatedAt: Time)
  datatype RoomRow = RoomRow(id: Id, name: string, description: string, maxMembers: int32, createdBy: Id, createdAt: Time, updatedAt: Time)
  datatype MemberRow = MemberRow(id: Id, roomId: Id, userId: Id, createdAt: Time, updatedAt: Time)
  datatype MessageRow = MessageRow(id: Id, roomId: Id, roomMemberId: Id, userId: Id, content: string, createdAt: Time, updatedAt: Time)

  /** The whole database. `nextId` is the next id the store hands out, `clock` the next timestamp. */
  datatype Db = Db(
    users: seq<UserRow>,
    auths: seq<AuthRow>,
    rooms: seq<RoomRow>,
    members: seq<MemberRow>,
    messages: seq<MessageRow>,
    nextId: Id,
    clock: Time)

  /** `pgx.ErrNoRows` for a single-row query that matched nothing, or any other driver failure. */
  datatype DbError = NoRows | StoreError

  /** One tag per generated query; a query whose tag is in the injected fault set fails. */
  datatype Query =
    | CreateUserQuery | GetUserQuery | GetUsersQuery | UpdateUserQuery | DeleteUserQuery
    | CreateAuthQuery | GetUserAuthQuery
    | CreateRoomQuery | GetRoomQuery | GetRoomsQuery | UpdateRoomQuery | DeleteRoomQuery
    | CreateRoomMemberQuery | GetRoomMemberQuery | GetRoomMembersQuery | DeleteRoomMemberQuery
    | CreateRoomMessageQuery | GetRoomMessageQuery | GetRoomMessagesQuery | DeleteRoomMessageQuery
    | GetRoomMemberByWhereQuery | GetRoomMemberCountQuery

  /** The queries that fail with a driver error during one handler call or websocket frame. */
  type Faults = set<Query>

  /** An empty database: ids start at 1 so that no row ever carries `NilId`. */
  const Empty := Db([], [], [], [], [], 1, 1)

  /** The id and timestamp the store assigns to an inserted row, and the store after assigning them. */
  datatype Stamp = Stamp(id: Id, now: Time, db: Db)

  /** The `RETURNING id, created_at, updated_at` row of an insert, with the store after it. */
  datatype Inserted = Inserted(id: Id, createdAt: Time, updatedAt: Time, db: Db)

  function Allocate(db: Db): (s: Stamp)
    ensures s.id == db.nextId && s.now == db.clock
    ensures s.db == db.(nextId := db.nextId + 1, clock := db.clock + 1)
  {
    Stamp(db.nextId, db.clock, db.(nextId := db.nextId + 1, clock := db.clock + 1))
  }

  /** The store's clock read without inserting: the repository's `time.Now()` before an update. */
  function Tick(db: Db): (s: Stamp)
    ensures s.now == db.clock && s.db == db.(clock := db.clock + 1)
  {
    Stamp(db.nextId, db.clock, db.(clock := db.clock + 1))
  }

  // Column accessors, used as the `key` of the table scans in Seqs.
  function UserId(u: UserRow): Id { u.id }
  function UserEmail(u: UserRow): string { u.email }
  function AuthId(a: AuthRow): Id { a.id }
  function AuthUser(a: AuthRow): Id { a.userId }
  function RoomId(r: RoomRow): Id { r.id }
  function RoomCreator(r: RoomRow): Id { r.createdBy }
  function MemberId(m: MemberRow): Id { m.id }
  function MemberRoom(m: MemberRow): Id { m.roomId }
  function MemberUser(m: MemberRow): Id { m.userId }
  function MemberPair(m: MemberRow): (Id, Id) { (m.roomId, m.userId) }
  function MessageId(m: MessageRow): Id { m.id }
  function MessageRoom(m: MessageRow): Id { m.roomId }
  function MessageMember(m: MessageRow): Id { m.roomMemberId }
  function MessageUser(m: MessageRow): Id { m.userId }

  function UserStamp(u: UserRow): Time { u.updatedAt }
  function AuthStamp(a: AuthRow): Time { a.updatedAt }
  function RoomStamp(r: RoomRow): Time { r.updatedAt }
  function MemberStamp(m: MemberRow): Time { m.updatedAt }
  function MessageStamp(m: MessageRow): Time { m.updatedAt }

  /** A well-formed table: ids ascend in insertion order, lie in [1, nextId), and every
      last-update stamp is in the past. */
  ghost predicate WellFormed<T(!new)>(s: seq<T>, id: T -> nat, stamp: T -> nat, nextId: Id, clock: Time) {
    && Ascending(s, id)
    && (forall x :: x in s ==> 1 <= id(x) < nextId && stamp(x) < clock)
  }

  /** The store invariant every operation of the model preserves. */
  ghost predicate Valid(db: Db) {
    && db.nextId >= 1
    && WellFormed(db.users, UserId, UserStamp, db.nextId, db.clock)
    && WellFormed(db.auths, AuthId, AuthStamp, db.nextId, db.clock)
    && WellFormed(db.rooms, RoomId, RoomStamp, db.nextId, db.clock)
    && WellFormed(db.members, MemberId, MemberStamp, db.nextId, db.clock)
    && WellFormed(db.messages, MessageId, MessageStamp, db.nextId, db.clock)
  }

  /** Inserting a row stamped by `Allocate` keeps a well-formed table well-formed. */
  lemma WellFormedInsert<T(!new)>(s: seq<T>, x: T, id: T -> nat, stamp: T -> nat, nextId: Id, clock: Time)
    requires WellFormed(s, id, stamp, nextId, clock)
    requires id(x) == nextId >= 1 && stamp(x) == clock
    ensures WellFormed(s + [x], id, stamp, nextId + 1, clock + 1)
  {
    AscendingAppend(s, x, id);
  }

  /** Advancing the id counter or the clock keeps a well-formed table well-formed. */
  lemma WellFormedLater<T(!new)>(s: seq<T>, id: T -> nat, stamp: T -> nat, nextId: Id, clock: Time, nextId': Id, clock': Time)
    requires WellFormed(s, id, stamp, nextId, clock)
    requires nextId <= nextId' && clock <= clock'
    ensures WellFormed(s, id, stamp, nextId', clock')
  {
  }

  /** Deleting rows keeps a well-formed table well-formed. */
  lemma WellFormedRemove<T(!new), K>(s: seq<T>, key: T -> K, k: K, id: T -> nat, stamp: T -> nat, nextId: Id, clock: Time)
    requires WellFormed(s, id, stamp, nextId, clock)
    ensures WellFormed(RemoveKey(s, key, k), id, stamp, nextId, clock)
  {
    RemoveKeyAscending(s, key, k, id);
  }

  /** The tables an insert does not touch stay well-formed under the advanced counters. */
  lemma KeepOtherTables(db: Db, db': Db)
    requires Valid(db)
    requires db'.nextId == db.nextId + 1 && db'.clock == db.clock + 1
    requires db'.users == db.users || WellFormed(db'.users, UserId, UserStamp, db'.nextId, db'.clock)
    requires db'.auths == db.auths || WellFormed(db'.auths, AuthId, AuthStamp, db'.nextId, db'.clock)
    requires db'.rooms == db.rooms || WellFormed(db'.rooms, RoomId, RoomStamp, db'.nextId, db'.clock)
    requires db'.members == db.members || WellFormed(db'.members, MemberId, MemberStamp, db'.nextId, db'.clock)
    requires db'.messages == db.messages || WellFormed(db'.messages, MessageId, MessageStamp, db'.nextId, db'.clock)
    ensures Valid(db')
  {
    WellFormedLater(db.users, UserId, UserStamp, db.nextId, db.clock, db'.nextId, db'.clock);
    WellFormedLater(db.auths, AuthId, AuthStamp, db.nextId, db.clock, db'.nextId, db'.clock);
    WellFormedLater(db.rooms, RoomId, RoomStamp, db.nextId, db.clock, db'.nextId, db'.clock);
    WellFormedLater(db.members, MemberId, MemberStamp, db.nextId, db.clock, db'.nextId, db'.clock);
    WellFormedLater(db.messages, MessageId, MessageStamp, db.nextId, db.clock, db'.nextId, db'.clock);
  }

  /** Reading the clock keeps the store valid. */
  lemma TickKeepsValid(db: Db)
    requires Valid(db)
    ensures Valid(Tick(db).db)
  {
    var db' := Tick(db).db;
    WellFormedLater(db.users, UserId, UserStamp, db.nextId, db.clock, db'.nextId, db'.clock);
    WellFormedLater(db.auths, AuthId, AuthStamp, db.nextId, db.clock, db'.nextId, db'.clock);
    WellFormedLater(db.rooms, RoomId, RoomStamp, db.nextId, db.clock, db'.nextId, db'.clock);
    WellFormedLater(db.members, MemberId, MemberStamp, db.nextId, db.clock, db'.nextId, db'.clock);
    WellFormedLater(db.messages, MessageId, MessageStamp, db.nextId, db.clock, db'.nextId, db'.clock);
  }

  /** In a valid store the all-zero id names no row. */
  lemma NilIdUnused(db: Db)
    requires Valid(db)
    ensures forall u :: u in db.users ==> u.id != NilId
    ensures forall r :: r in db.rooms ==> r.id != NilId
    ensures forall m :: m in db.members ==> m.id != NilId
  {
  }

  const Int32Modulus: int := 0x1_0000_0000

  /** Go's `int32(x)` conversion: keeps the low 32 bits, read as two's complement,
      so the result agrees with `x` modulo 2^32 and equals `x` when `x` is in range. */
  function Int32(x: int): (r: int32)
    ensures (r - x) % Int32Modulus == 0
    ensures -0x8000_0000 <= x <= 0x7fff_ffff ==> r == x
  {
    var low := x % Int32Modulus;
    if low > 0x7fff_ffff then low - Int32Modulus else low
  }
}

=== FILE: fanout.dfy ===
/** Live-message fanout: the registry of connected clients, keyed by user id, with the
    frames written to each one's connection so far; and `broadcast`, which writes one
    message to every member of a room who is connected. */
module Fanout {
  import opened Wrappers
  import opened Seqs
  import opened Db
  import opened Models
  import RoomSql
  import Repo = RoomRepository

  /** The JSON frame on the wire: `room_id`, `content` and `user_id`. */
  datatype WireMessage = WireMessage(roomId: Id, content: string, userId: Id)

  /** The connected clients by user id, each with the frames written to it so far. */
  type Registry = map<Id, seq<WireMessage>>

  /** The user ids `broadcast` writes to: those of the members that are connected, in
      member-list order, one per membership row. */
  function Recipients(members: seq<RoomMember>, registry: Registry): (r: seq<Id>)
    ensures |r| <= |members|
    ensures forall u :: u in r ==> u in registry
    ensures forall u :: u in r <==> u in registry && exists m :: m in members && m.userId == u
    ensures forall u :: multiset(r)[u] == if u in registry then Occurrences(members, u) else 0
  {
    if members == [] then []
    else
      assert forall m :: m in members <==> m == members[0] || m in members[1..];
      (if members[0].userId in registry then [members[0].userId] else []) + Recipients(members[1..], registry)
  }

  /** How many of the memberships belong to user `u`. */
  function Occurrences(members: seq<RoomMember>, u: Id): nat {
    if members == [] then 0
    else (if members[0].userId == u then 1 else 0) + Occurrences(members[1..], u)
  }

  /** `n` copies of the message. */
  function Copies(msg: WireMessage, n: nat): (r: seq<WireMessage>)
    ensures |r| == n && forall i :: 0 <= i < n ==> r[i] == msg
  {
    if n == 0 then [] else [msg] + Copies(msg, n - 1)
  }

  /** The registry after the writes, and whether one of them failed. */
  datatype Delivery = Delivery(registry: Registry, failed: bool)

  /** Writes `msg` to each recipient in order; a write to a connection in `broken` fails and
      stops the loop, so later recipients get nothing. */
  function Deliver(registry: Registry, recipients: seq<Id>, msg: WireMessage, broken: set<Id>): (d: Delivery)
    requires forall u :: u in recipients ==> u in registry
    ensures d.registry.Keys == registry.Keys
    ensures d.failed <==> exists u :: u in recipients && u in broken
    ensures forall u :: u in registry && u !in recipients ==> d.registry[u] == registry[u]
  {
    if recipients == [] then Delivery(registry, false)
    else
      var u := recipients[0];
      if u in broken then Delivery(registry, true)
      else
        var rest := recipients[1..];
        assert recipients == [u] + rest;
        Deliver(registry[u := registry[u] + [msg]], rest, msg, broken)
  }

  /** When no write fails, a connected client receives the message once for each time it
      appears among the recipients, after what it had already received. */
  lemma {:induction false} DeliverAppendsCopies(registry: Registry, recipients: seq<Id>, msg: WireMessage, broken: set<Id>, v: Id)
    requires forall u :: u in recipients ==> u in registry
    requires forall u :: u in recipients ==> u !in broken
    requires v in registry
    ensures Deliver(registry, recipients, msg, broken).registry[v] == registry[v] + Copies(msg, multiset(recipients)[v])
  {
    if recipients != [] {
      var u: Id := recipients[0];
      var rest: seq<Id> := recipients[1..];
      assert recipients == [u] + rest;
      assert u !in broken;
      var next := registry[u := registry[u] + [msg]];
      assert Deliver(registry, recipients, msg, broken) == Deliver(next, rest, msg, broken);
      DeliverAppendsCopies(next, rest, msg, broken, v);
      assert multiset(recipients) == multiset{u} + multiset(rest);
      var j := multiset(rest)[v];
      if u == v {
        assert multiset(recipients)[v] == j + 1;
        assert Copies(msg, j + 1) == [msg] + Copies(msg, j);
        assert next[v] + Copies(msg, j) == registry[v] + Copies(msg, j + 1);
      } else {
        assert multiset(recipients)[v] == j;
      }
    }
  }

  /** Whatever happens, a client's outbox only grows by copies of the message. */
  lemma {:induction false} DeliverWritesOnly(registry: Registry, recipients: seq<Id>, msg: WireMessage, broken: set<Id>, v: Id) returns (k: nat)
    requires forall u :: u in recipients ==> u in registry
    requires v in registry
    ensures Deliver(registry, recipients, msg, broken).registry[v] == registry[v] + Copies(msg, k)
  {
    if recipients == [] || recipients[0] in broken {
      k := 0;
    } else {
      var u: Id := recipients[0];
      assert forall w :: w in recipients[1..] ==> w in recipients;
      var next := registry[u := registry[u] + [msg]];
      var j := DeliverWritesOnly(next, recipients[1..], msg, broken, v);
      k := if u == v then j + 1 else j;
      if u == v {
        assert registry[v] + Copies(msg, k) == registry[v] + [msg] + Copies(msg, j);
      }
    }
  }

  /** A client's frames after a write loop: what it had, then some copies of `msg`. */
  ghost predicate OnlyCopies(before: Registry, after: Registry, msg: WireMessage) {
    forall u :: u in before ==> u in after && exists k: nat :: after[u] == before[u] + Copies(msg, k)
  }

  lemma NoCopies(registry: Registry, msg: WireMessage)
    ensures OnlyCopies(registry, registry, msg)
  {
    forall v | v in registry ensures registry[v] == registry[v] + Copies(msg, 0) { }
  }

  lemma DeliverOnlyCopies(registry: Registry, recipients: seq<Id>, msg: WireMessage, broken: set<Id>)
    requires forall u :: u in recipients ==> u in registry
    ensures OnlyCopies(registry, Deliver(registry, recipients, msg, broken).registry, msg)
  {
    forall v | v in registry
      ensures exists k: nat :: Deliver(registry, recipients, msg, broken).registry[v] == registry[v] + Copies(msg, k)
    {
      var k := DeliverWritesOnly(registry, recipients, msg, broken, v);
    }
  }

  /** The first failing write ends the loop: the registry is exactly what the writes before
      it produced, and the recipients from the failing one on get nothing. */
  lemma {:induction false} DeliverStopsAtFirstFailure(registry: Registry, recipients: seq<Id>, msg: WireMessage, broken: set<Id>, k: nat)
    requires forall u :: u in recipients ==> u in registry
    requires k < |recipients| && recipients[k] in broken
    requires forall j :: 0 <= j < k ==> recipients[j] !in broken
    ensures Deliver(registry, recipients, msg, broken) == Delivery(Deliver(registry, recipients[..k], msg, broken).registry, true)
  {
    if k > 0 {
      var u := recipients[0];
      assert recipients[1..][..k - 1] == recipients[..k][1..];
      DeliverStopsAtFirstFailure(registry[u := registry[u] + [msg]], recipients[1..], msg, broken, k - 1);
    }
  }

  /** Why a session or a broadcast stopped. */
  datatype SessionError = ReadError | Store(cause: DbError) | WriteError

  /** The registry after a broadcast, and the error it returned, if any. */
  datatype Outcome = Outcome(registry: Registry, error: Option<SessionError>)

  /** `broadcast`: fetches the room's memberships and writes the message, attributed to
      the sender, to every member who is connected. The sender is not skipped. */
  function Broadcast(db: Db, f: Faults, registry: Registry, broken: set<Id>, sender: User, roomId: Id, content: string): (r: Outcome)
    ensures r.registry.Keys == registry.Keys
    ensures OnlyCopies(registry, r.registry, WireMessage(roomId, content, sender.id))
    ensures GetRoomMembersQuery in f ==> r == Outcome(registry, Some(Store(StoreError)))
    ensures GetRoomMembersQuery !in f ==> r.error.None? || r.error == Some(WriteError)
  {
    var msg := WireMessage(roomId, content, sender.id);
    match Repo.GetRoomMembers(db, f, Some(roomId), None)
    case Failure(e) =>
      NoCopies(registry, msg);
      Outcome(registry, Some(Store(e)))
    case Success(members) =>
      DeliverOnlyCopies(registry, Recipients(members, registry), msg, broken);
      var d := Deliver(registry, Recipients(members, registry), msg, broken);
      Outcome(d.registry, if d.failed then Some(WriteError) else None)
  }

  /** How many memberships of `roomId` the store holds for user `u`. */
  function MembershipsOf(db: Db, roomId: Id, u: Id): nat {
    |Where(Where(db.members, MemberRoom, Some(roomId)), MemberUser, Some(u))|
  }

  /** Without write failures, every connected client receives the sender's message once
      per membership it holds in the room, and nothing else; clients that are not members
      receive nothing. */
  lemma BroadcastRecipients(db: Db, f: Faults, registry: Registry, broken: set<Id>, sender: User, roomId: Id, content: string)
    requires GetRoomMembersQuery !in f
    requires forall u :: u in registry && u in broken ==> MembershipsOf(db, roomId, u) == 0
    ensures var r := Broadcast(db, f, registry, broken, sender, roomId, content);
      && r.error.None?
      && forall u :: u in registry ==>
           r.registry[u] == registry[u] + Copies(WireMessage(roomId, content, sender.id), MembershipsOf(db, roomId, u))
  {
    var members := Repo.GetRoomMembers(db, f, Some(roomId), None).value;
    var rows := RoomSql.GetRoomMembers(db, f, Some(roomId), None).value;
    assert rows == Where(db.members, MemberRoom, Some(roomId));
    var recipients := Recipients(members, registry);
    var msg := WireMessage(roomId, content, sender.id);
    forall u | u in registry ensures multiset(recipients)[u] == MembershipsOf(db, roomId, u) {
      OccurrencesOfRows(rows, members, u);
    }
    forall u | u in recipients ensures u !in broken {
      assert multiset(recipients)[u] > 0;
    }
    forall u | u in registry
      ensures Deliver(registry, recipients, msg, broken).registry[u] == registry[u] + Copies(msg, MembershipsOf(db, roomId, u))
    {
      DeliverAppendsCopies(registry, recipients, msg, broken, u);
    }
  }

  /** With the member list fetched, the broadcast reports a write error exactly when some
      connected member of the room has a broken connection. */
  lemma BroadcastFailsIff(db: Db, f: Faults, registry: Registry, broken: set<Id>, sender: User, roomId: Id, content: string)
    requires GetRoomMembersQuery !in f
    ensures Broadcast(db, f, registry, broken, sender, roomId, content).error == Some(WriteError) <==>
      exists u :: u in registry && u in broken && MembershipsOf(db, roomId, u) > 0
  {
    var members := Repo.GetRoomMembers(db, f, Some(roomId), None).value;
    var rows := RoomSql.GetRoomMembers(db, f, Some(roomId), None).value;
    assert rows == Where(db.members, MemberRoom, Some(roomId));
    var recipients := Recipients(members, registry);
    forall u | u in registry ensures multiset(recipients)[u] == MembershipsOf(db, roomId, u) {
      OccurrencesOfRows(rows, members, u);
    }
  }

  /** Counting a user's memberships in the mapped list is counting their rows. */
  lemma {:induction false} OccurrencesOfRows(rows: seq<MemberRow>, members: seq<RoomMember>, u: Id)
    requires |members| == |rows| && forall i :: 0 <= i < |rows| ==> members[i] == ToMember(rows[i])
    ensures Occurrences(members, u) == |Where(rows, MemberUser, Some(u))|
  {
    if rows != [] {
      OccurrencesOfRows(rows[1..], members[1..], u);
    }
  }
}

=== FILE: models.dfy ===
/** The domain records handlers and repositories exchange. Ids are the store's ids and
    timestamps its clock readings; a record that has not been saved yet carries
    `NilId` and time 0, Go's zero values. */
module Models {
  import opened Db

  datatype User = User(id: Id, createdAt: Time, updatedAt: Time, firstName: string, lastName: string, email: string)

  datatype Auth = Auth(id: Id, createdAt: Time, updatedAt: Time, userId: Id, password: string)

  /** `maxMembers` is a Go `int`; the store keeps it as `int32`. */
  datatype Room = Room(id: Id, createdAt: Time, updatedAt: Time, name: string, description: string, maxMembers: int, createdBy: Id)

  datatype RoomMember = RoomMember(id: Id, createdAt: Time, updatedAt: Time, roomId: Id, userId: Id)

  datatype RoomMessage = RoomMessage(id: Id, createdAt: Time, updatedAt: Time, roomId: Id, roomMemberId: Id, userId: Id, content: string)

  /** The claims an access token is signed over. */
  datatype Claims = Claims(userId: Id, email: string)

  /** An operation's result together with the store after it. */
  datatype Saved<T> = Saved(value: T, db: Db)

  function ToUser(u: UserRow): (r: User)
    ensures r.id == u.id && r.firstName == u.firstName && r.lastName == u.lastName && r.email == u.email
    ensures r.createdAt == u.createdAt && r.updatedAt == u.updatedAt
  {
    User(u.id, u.createdAt, u.updatedAt, u.firstName, u.lastName, u.email)
  }

  function ToAuth(a: AuthRow): (r: Auth)
    ensures r.id == a.id && r.userId == a.userId && r.password == a.password
    ensures r.createdAt == a.createdAt && r.updatedAt == a.updatedAt
  {
    Auth(a.id, a.createdAt, a.updatedAt, a.userId, a.password)
  }

  function ToMember(m: MemberRow): (r: RoomMember)
    ensures r.id == m.id && r.roomId == m.roomId && r.userId == m.userId
    ensures r.createdAt == m.createdAt && r.updatedAt == m.updatedAt
  {
    RoomMember(m.id, m.createdAt, m.updatedAt, m.roomId, m.userId)
  }

  function ToMessage(m: MessageRow): (r: RoomMessage)
    ensures r.id == m.id && r.roomId == m.roomId && r.roomMemberId == m.roomMemberId && r.userId == m.userId
    ensures r.content == m.content && r.createdAt == m.createdAt && r.updatedAt == m.updatedAt
  {
    RoomMessage(m.id, m.createdAt, m.updatedAt, m.roomId, m.roomMemberId, m.userId, m.content)
  }
}

=== FILE: room_handlers.dfy ===
/** The room endpoints. Each handler is one atomic transition: it either answers with a
    result and the store after it, or with an error and leaves the store as it was. The
    caller is the user the authenticator put in the request context. */
module RoomHandlers {
  import opened Wrappers
  import opened Seqs
  import opened Db
  import RoomSql
  import Repo = RoomRepository
  import Service = RoomService
  import opened Models
  import opened ApiErrors

  const Unauthorized401 := ApiError(Unauthorized, UnauthorizedText)
  const NotMember400 := ApiError(BadRequest, "not a member of room")
  const AlreadyMember406 := ApiError(NotAcceptable, "already a member")

  /** The room lookup that opens join, leave and the member and message listings:
      a missing room is a 404, any other store error a 500. */
  function FindRoom(db: Db, f: Faults, roomId: Id): (r: Result<Room, ApiError>)
    ensures r.Success? <==> Repo.GetRoom(db, f, roomId).Success?
    ensures r.Success? ==> Repo.GetRoom(db, f, roomId) == Success(r.value)
    ensures r == Failure(ApiError(NotFound, NotFoundText)) <==> Repo.GetRoom(db, f, roomId) == Failure(NoRows)
    ensures Repo.GetRoom(db, f, roomId) == Failure(StoreError) ==> r == Failure(Internal(StoreError))
  {
    match Repo.GetRoom(db, f, roomId)
    case Success(room) => Success(room)
    case Failure(NoRows) => Failure(ApiError(NotFound, NotFoundText))
    case Failure(e) => Failure(Internal(e))
  }

  /** The caller's membership of the room: no membership is a 400, a store error a 500. */
  function FindMembership(db: Db, f: Faults, caller: User, roomId: Id): (r: Result<RoomMember, ApiError>)
    ensures r.Success? ==> r.value.userId == caller.id && r.value.roomId == roomId
    ensures r.Success? ==> Repo.IsMember(db, caller.id, roomId)
    ensures r.Success? ==> exists row :: row in db.members && r.value == ToMember(row)
    ensures GetRoomMemberByWhereQuery !in f ==> (r == Failure(NotMember400) <==> !Repo.IsMember(db, caller.id, roomId))
  {
    match Repo.GetRoomMemberByWhere(db, f, caller.id, roomId)
    case Success(m) =>
      assert Repo.IsMember(db, caller.id, roomId) by {
        var row :| row in db.members && m == ToMember(row);
        var i :| 0 <= i < |db.members| && db.members[i] == row;
      }
      Success(m)
    case Failure(NoRows) => Failure(NotMember400)
    case Failure(e) => Failure(Internal(e))
  }

  /** `getRoom`: members only; anyone else, and any lookup error, gets a 401. */
  function GetRoom(db: Db, f: Faults, caller: User, roomId: Id): (r: Result<Room, ApiError>)
    ensures r.Success? ==> Repo.IsMember(db, caller.id, roomId) && Repo.GetRoom(db, f, roomId) == Success(r.value)
    ensures !Repo.IsMember(db, caller.id, roomId) ==> r == Failure(Unauthorized401)
    ensures r.Success? ==> Repo.GetRoomAsWritten(db, f, roomId) == Success(r.value.(maxMembers := 0))
    ensures r.Success? <==>
      GetRoomMemberByWhereQuery !in f && GetRoomQuery !in f && Repo.IsMember(db, caller.id, roomId) && Repo.RoomExists(db, roomId)
  {
    if Repo.GetRoomMemberByWhere(db, f, caller.id, roomId).Failure? then Failure(Unauthorized401)
    else
      match Repo.GetRoom(db, f, roomId)
      case Success(room) => Success(room)
      case Failure(e) => Failure(Internal(e))
  }

  /** `getRooms`: every room, in store order. */
  function GetRooms(db: Db, f: Faults): (r: Result<seq<Room>, ApiError>)
    ensures GetRoomsQuery !in f ==> r.Success? && |r.value| == |db.rooms|
    ensures r.Success? ==> |r.value| == |db.rooms| && forall i :: 0 <= i < |r.value| ==> r.value[i] == Repo.ToRoom(db.rooms[i])
    ensures r.Success? ==>
      var w := Repo.GetRoomsAsWritten(db, f, None);
      w.Success? && |w.value| == |r.value| && forall i :: 0 <= i < |r.value| ==> w.value[i] == r.value[i].(maxMembers := 0)
  {
    match Repo.GetRooms(db, f, None)
    case Success(rooms) => Success(rooms)
    case Failure(NoRows) => Success([])
    case Failure(e) => Failure(Internal(e))
  }

  datatype CreateRoomDto = CreateRoomDto(name: string, description: string, maxMembers: int)

  /** `createRoom`: the caller creates the room and so becomes its first member. */
  function CreateRoom(db: Db, f: Faults, caller: User, dto: CreateRoomDto): (r: Result<Saved<Room>, ApiError>)
    ensures r.Failure? <==> CreateRoomQuery in f || CreateRoomMemberQuery in f
    ensures r.Success? ==>
      var room := r.value.value;
      && room.name == dto.name && room.description == dto.description
      && room.maxMembers == dto.maxMembers && room.createdBy == caller.id
      && r.value.db.rooms == db.rooms + [RoomRow(room.id, dto.name, dto.description, Int32(dto.maxMembers), caller.id, room.createdAt, room.updatedAt)]
      && |r.value.db.members| == |db.members| + 1
      && r.value.db.members[..|db.members|] == db.members
      && r.value.db.members[|db.members|].roomId == room.id
      && r.value.db.members[|db.members|].userId == caller.id
    ensures r.Success? ==> r.value.db.(rooms := db.rooms, members := db.members, nextId := db.nextId, clock := db.clock) == db
  {
    var room := Room(NilId, 0, 0, dto.name, dto.description, dto.maxMembers, caller.id);
    match Service.CreateRoom(db, f, room)
    case Success(saved) => Success(saved)
    case Failure(Store(e)) => Failure(Internal(e))
    case Failure(MaxMembersReached) => Failure(ApiError(InternalError, Service.MaxMembersMessage))
  }

  /** The checks `updateRoom` and `deleteRoom` share: the caller must be a member (401
      otherwise), the room must load (500 otherwise), and the caller must have created it
      (401 otherwise). */
  function CreatorRoom(db: Db, f: Faults, caller: User, roomId: Id): (r: Result<Room, ApiError>)
    ensures r.Success? ==> Repo.IsMember(db, caller.id, roomId) && r.value.createdBy == caller.id
    ensures r.Success? ==> Repo.GetRoom(db, f, roomId) == Success(r.value)
    ensures !Repo.IsMember(db, caller.id, roomId) ==> r == Failure(Unauthorized401)
    ensures Repo.GetRoom(db, f, roomId).Success? && Repo.GetRoom(db, f, roomId).value.createdBy != caller.id ==> r == Failure(Unauthorized401)
  {
    var room :- GetRoom(db, f, caller, roomId);
    if room.createdBy != caller.id then Failure(Unauthorized401) else Success(room)
  }

  /** `deleteRoom` as written: after the checks it deletes the room message whose id is the
      room's id, so the room itself survives. */
  function DeleteRoomAsWritten(db: Db, f: Faults, caller: User, roomId: Id): (r: Result<Db, ApiError>)
    ensures r.Success? ==> r.value.rooms == db.rooms
    ensures !Repo.IsMember(db, caller.id, roomId) ==> r == Failure(Unauthorized401)
  {
    var _ :- CreatorRoom(db, f, caller, roomId);
    match Repo.DeleteRoomMessage(db, f, roomId)
    case Success(db') => Success(db')
    case Failure(_) => Failure(Unauthorized401)
  }

  /** Finding: a successful `deleteRoom` as written leaves the room where it was. */
  lemma DeleteRoomAsWrittenKeepsRoom(db: Db, f: Faults, g: Faults, caller: User, roomId: Id)
    requires DeleteRoomAsWritten(db, f, caller, roomId).Success?
    ensures Repo.GetRoom(DeleteRoomAsWritten(db, f, caller, roomId).value, g, roomId) == Repo.GetRoom(db, g, roomId)
  {
  }

  /** `deleteRoom` as intended: the creator deletes the room row. */
  function DeleteRoom(db: Db, f: Faults, caller: User, roomId: Id): (r: Result<Db, ApiError>)
    ensures r.Success? ==> Repo.IsMember(db, caller.id, roomId) && Repo.GetRoom(db, f, roomId).Success? && Repo.GetRoom(db, f, roomId).value.createdBy == caller.id
    ensures r.Success? ==> forall x :: x in r.value.rooms <==> x in db.rooms && x.id != roomId
    ensures r.Success? ==> r.value.(rooms := db.rooms) == db
    ensures !Repo.IsMember(db, caller.id, roomId) ==> r == Failure(Unauthorized401)
    ensures Repo.GetRoom(db, f, roomId).Success? && Repo.GetRoom(db, f, roomId).value.createdBy != caller.id ==> r == Failure(Unauthorized401)
    ensures r.Success? <==>
      && GetRoomMemberByWhereQuery !in f && GetRoomQuery !in f && DeleteRoomQuery !in f
      && Repo.IsMember(db, caller.id, roomId) && Repo.RoomExists(db, roomId)
      && Repo.GetRoom(db, f, roomId).value.createdBy == caller.id
  {
    var _ :- CreatorRoom(db, f, caller, roomId);
    match Repo.DeleteRoom(db, f, roomId)
    case Success(db') => Success(db')
    case Failure(_) => Failure(Unauthorized401)
  }

  /** After the intended `deleteRoom` the room is gone. */
  lemma DeleteRoomRemovesRoom(db: Db, f: Faults, g: Faults, caller: User, roomId: Id)
    requires DeleteRoom(db, f, caller, roomId).Success? && GetRoomQuery !in g
    ensures Repo.GetRoom(DeleteRoom(db, f, caller, roomId).value, g, roomId) == Failure(NoRows)
  {
    var rooms := DeleteRoom(db, f, caller, roomId).value.rooms;
    forall i | 0 <= i < |rooms| ensures rooms[i].id != roomId {
      assert rooms[i] in rooms;
    }
  }

  /** The optional fields of a room update; an absent field is `None`. */
  datatype UpdateRoomDto = UpdateRoomDto(name: Option<string>, description: Option<string>, maxMembers: Option<int>)

  /** The partial merge of `updateRoom`: present fields overwrite, absent ones keep their value. */
  function MergeRoom(room: Room, dto: UpdateRoomDto): (r: Room)
    ensures dto.name.Some? ==> r.name == dto.name.value
    ensures dto.name.None? ==> r.name == room.name
    ensures dto.description.Some? ==> r.description == dto.description.value
    ensures dto.description.None? ==> r.description == room.description
    ensures dto.maxMembers.Some? ==> r.maxMembers == dto.maxMembers.value
    ensures dto.maxMembers.None? ==> r.maxMembers == room.maxMembers
    ensures r.(name := room.name, description := room.description, maxMembers := room.maxMembers) == room
  {
    room.(name := dto.name.GetOr(room.name),
          description := dto.description.GetOr(room.description),
          maxMembers := dto.maxMembers.GetOr(room.maxMembers))
  }

  /** `updateRoom` as written: the checks run and the fields are merged into the record
      read, but nothing is saved and no response body is written; the caller gets an
      empty success. */
  function UpdateRoomAsWritten(db: Db, f: Faults, caller: User, roomId: Id, dto: UpdateRoomDto): (r: Result<Db, ApiError>)
    ensures r.Success? ==> r.value == db
    ensures r.Success? ==> Repo.IsMember(db, caller.id, roomId) && Repo.GetRoom(db, f, roomId).Success? && Repo.GetRoom(db, f, roomId).value.createdBy == caller.id
    ensures !Repo.IsMember(db, caller.id, roomId) ==> r == Failure(Unauthorized401)
    ensures Repo.GetRoom(db, f, roomId).Success? && Repo.GetRoom(db, f, roomId).value.createdBy != caller.id ==> r == Failure(Unauthorized401)
  {
    var room :- CreatorRoom(db, f, caller, roomId);
    var _ := MergeRoom(room, dto);
    Success(db)
  }

  /** Finding: a successful `updateRoom` as written changes nothing a later read can see. */
  lemma UpdateRoomAsWrittenLosesUpdate(db: Db, f: Faults, g: Faults, caller: User, roomId: Id, dto: UpdateRoomDto)
    requires UpdateRoomAsWritten(db, f, caller, roomId, dto).Success?
    ensures Repo.GetRoom(UpdateRoomAsWritten(db, f, caller, roomId, dto).value, g, roomId) == Repo.GetRoom(db, g, roomId)
  {
  }

  /** `updateRoom` as intended: the merged room is saved with a fresh stamp. */
  function UpdateRoom(db: Db, f: Faults, caller: User, roomId: Id, dto: UpdateRoomDto): (r: Result<Saved<Room>, ApiError>)
    ensures r.Success? ==> Repo.IsMember(db, caller.id, roomId) && Repo.GetRoom(db, f, roomId).Success? && Repo.GetRoom(db, f, roomId).value.createdBy == caller.id
    ensures r.Success? ==> Repo.GetRoom(db, f, roomId).Success? && r.value.value == MergeRoom(Repo.GetRoom(db, f, roomId).value, dto).(updatedAt := db.clock)
    ensures r.Success? ==> r.value.db.(rooms := db.rooms, clock := db.clock) == db && r.value.db.clock == db.clock + 1
    ensures !Repo.IsMember(db, caller.id, roomId) ==> r == Failure(Unauthorized401)
    ensures Repo.GetRoom(db, f, roomId).Success? && Repo.GetRoom(db, f, roomId).value.createdBy != caller.id ==> r == Failure(Unauthorized401)
    ensures r.Success? <==>
      && GetRoomMemberByWhereQuery !in f && GetRoomQuery !in f && UpdateRoomQuery !in f
      && Repo.IsMember(db, caller.id, roomId) && Repo.RoomExists(db, roomId)
      && Repo.GetRoom(db, f, roomId).value.createdBy == caller.id
  {
    var room :- CreatorRoom(db, f, caller, roomId);
    match Repo.UpdateRoom(db, f, MergeRoom(room, dto))
    case Success(saved) => Success(saved)
    case Failure(e) => Failure(Internal(e))
  }

  /** The intended update is what the next read returns, and its stamp moved forward. */
  lemma UpdateRoomPersists(db: Db, f: Faults, caller: User, roomId: Id, dto: UpdateRoomDto)
    requires Valid(db) && GetRoomQuery !in f
    requires UpdateRoom(db, f, caller, roomId, dto).Success?
    requires dto.maxMembers.Some? ==> -0x8000_0000 <= dto.maxMembers.value <= 0x7fff_ffff
    ensures var u := UpdateRoom(db, f, caller, roomId, dto).value;
      && Repo.GetRoom(u.db, f, roomId) == Success(u.value)
      && u.value.updatedAt > Repo.GetRoom(db, f, roomId).value.updatedAt
  {
    var stored := Repo.GetRoom(db, f, roomId).value;
    var merged := MergeRoom(stored, dto);
    var row :| row in db.rooms && row.id == roomId && stored == Repo.ToRoom(row);
    assert -0x8000_0000 <= merged.maxMembers <= 0x7fff_ffff;
    Repo.UpdateThenGetRoom(db, f, f, merged);
    Repo.UpdateRoomAdvances(db, f, f, merged);
  }

  /** The error a service-level failure of a join or a leave turns into. */
  function ServiceFailure(e: Service.ServiceError): ApiError {
    match e
    case Store(cause) => Internal(cause)
    case MaxMembersReached => ApiError(InternalError, Service.MaxMembersMessage)
  }

  /** `joinRoom` as written. The membership check treats a found membership like a failed
      lookup, so a member who joins again gets a 401 and the 406 is never reached. */
  function JoinRoomAsWritten(db: Db, f: Faults, caller: User, roomId: Id): (r: Result<Saved<RoomMember>, ApiError>)
    ensures Repo.IsMember(db, caller.id, roomId) && Repo.GetRoom(db, f, roomId).Success? ==> r == Failure(Unauthorized401)
    ensures r != Failure(AlreadyMember406)
  {
    var _ :- FindRoom(db, f, roomId);
    var lookup := Repo.GetRoomMemberByWhere(db, f, caller.id, roomId);
    if lookup.Success? || lookup.error != NoRows then Failure(Unauthorized401)
    else
      match Service.JoinRoom(db, f, RoomMember(NilId, 0, 0, roomId, caller.id))
      case Success(saved) => Success(saved)
      case Failure(e) => Failure(ServiceFailure(e))
  }

  /** Finding: the second join of the room's creator is answered 401, not 406. */
  lemma JoinRoomAsWrittenRejectsMemberWith401(db: Db, f: Faults, caller: User, roomId: Id)
    requires GetRoomQuery !in f && GetRoomMemberByWhereQuery !in f
    requires Repo.IsMember(db, caller.id, roomId)
    requires exists i :: 0 <= i < |db.rooms| && db.rooms[i].id == roomId
    ensures JoinRoomAsWritten(db, f, caller, roomId) == Failure(Unauthorized401)
    ensures JoinRoom(db, f, caller, roomId) == Failure(AlreadyMember406)
  {
  }

  /** `joinRoom` as intended: the room must exist (404), the caller must not be a member
      yet (406), and the room must have a free place. */
  function JoinRoom(db: Db, f: Faults, caller: User, roomId: Id): (r: Result<Saved<RoomMember>, ApiError>)
    ensures GetRoomQuery !in f ==> ((forall i :: 0 <= i < |db.rooms| ==> db.rooms[i].id != roomId) <==> r == Failure(ApiError(NotFound, NotFoundText)))
    ensures Repo.GetRoom(db, f, roomId).Success? && GetRoomMemberByWhereQuery !in f && Repo.IsMember(db, caller.id, roomId) ==>
      r == Failure(AlreadyMember406)
    ensures r.Success? ==>
      && !Repo.IsMember(db, caller.id, roomId)
      && RoomSql.GetRoom(db, f, roomId).Success?
      && Repo.MemberCount(db, roomId) < RoomSql.GetRoom(db, f, roomId).value.maxMembers
      && r.value.value.userId == caller.id && r.value.value.roomId == roomId
    ensures r.Success? <==>
      && GetRoomQuery !in f && GetRoomMemberByWhereQuery !in f && GetRoomMemberCountQuery !in f && CreateRoomMemberQuery !in f
      && Repo.RoomExists(db, roomId) && !Repo.IsMember(db, caller.id, roomId)
      && Repo.MemberCount(db, roomId) < RoomSql.GetRoom(db, f, roomId).value.maxMembers
  {
    var _ :- FindRoom(db, f, roomId);
    match Repo.GetRoomMemberByWhere(db, f, caller.id, roomId)
    case Success(_) => Failure(AlreadyMember406)
    case Failure(StoreError) => Failure(Unauthorized401)
    case Failure(NoRows) =>
      match Service.JoinRoom(db, f, RoomMember(NilId, 0, 0, roomId, caller.id))
      case Success(saved) => Success(saved)
      case Failure(e) => Failure(ServiceFailure(e))
  }

  /** A successful join adds exactly one membership, the caller's in the path room, and the
      room stays within its capacity. */
  lemma JoinRoomAddsOneMembership(db: Db, f: Faults, caller: User, roomId: Id)
    requires JoinRoom(db, f, caller, roomId).Success?
    ensures var after := JoinRoom(db, f, caller, roomId).value;
      && after.db.members == db.members + [MemberRow(after.value.id, roomId, caller.id, after.value.createdAt, after.value.updatedAt)]
      && after.value.userId == caller.id && after.value.roomId == roomId
      && Repo.MemberCount(after.db, roomId) <= RoomSql.GetRoom(db, f, roomId).value.maxMembers
      && after.db.(members := db.members, nextId := db.nextId, clock := db.clock) == db
  {
    Service.JoinRespectsCapacity(db, f, RoomMember(NilId, 0, 0, roomId, caller.id));
  }

  /** A join into a room that is already full fails with the capacity error. */
  lemma JoinFullRoomFails(db: Db, f: Faults, caller: User, roomId: Id)
    requires GetRoomQuery !in f && GetRoomMemberByWhereQuery !in f && GetRoomMemberCountQuery !in f
    requires RoomSql.GetRoom(db, f, roomId).Success?
    requires !Repo.IsMember(db, caller.id, roomId)
    requires Repo.MemberCount(db, roomId) >= RoomSql.GetRoom(db, f, roomId).value.maxMembers
    ensures JoinRoom(db, f, caller, roomId) == Failure(ApiError(InternalError, Service.MaxMembersMessage))
  {
  }

  /** `leaveRoom`: the room must exist (404) and the caller must be a member (400); then
      the caller's membership row is deleted by its id. */
  function LeaveRoom(db: Db, f: Faults, caller: User, roomId: Id): (r: Result<Db, ApiError>)
    ensures GetRoomQuery !in f ==> ((forall i :: 0 <= i < |db.rooms| ==> db.rooms[i].id != roomId) <==> r == Failure(ApiError(NotFound, NotFoundText)))
    ensures Repo.GetRoom(db, f, roomId).Success? && GetRoomMemberByWhereQuery !in f && !Repo.IsMember(db, caller.id, roomId) ==>
      r == Failure(NotMember400)
    ensures r.Success? ==>
      && Repo.IsMember(db, caller.id, roomId)
      && r.value.(members := db.members) == db
    ensures r.Success? ==>
      exists m :: m in db.members && m.userId == caller.id && m.roomId == roomId &&
        forall x :: x in r.value.members <==> x in db.members && x.id != m.id
  {
    var _ :- FindRoom(db, f, roomId);
    var member :- FindMembership(db, f, caller, roomId);
    match Service.LeaveRoom(db, f, member.id)
    case Success(db') =>
      var row :| row in db.members && member == ToMember(row);
      assert row.userId == caller.id && row.roomId == roomId && row.id == member.id;
      Success(db')
    case Failure(e) => Failure(ServiceFailure(e))
  }

  /** A member of an existing room can leave it; in a valid store the leave deletes exactly
      one row, one of the caller's memberships of the room, and keeps every message. */
  lemma LeaveRoomRemovesOneRow(db: Db, f: Faults, caller: User, roomId: Id)
    requires Valid(db)
    requires GetRoomQuery !in f && GetRoomMemberByWhereQuery !in f && DeleteRoomMemberQuery !in f
    requires exists j :: 0 <= j < |db.rooms| && db.rooms[j].id == roomId
    requires Repo.IsMember(db, caller.id, roomId)
    ensures LeaveRoom(db, f, caller, roomId).Success?
    ensures var after := LeaveRoom(db, f, caller, roomId).value;
      && after.messages == db.messages
      && exists i :: 0 <= i < |db.members| && db.members[i].userId == caller.id && db.members[i].roomId == roomId
           && after.members == db.members[..i] + db.members[i + 1..]
  {
    assert Repo.GetRoom(db, f, roomId).Success?;
    assert FindRoom(db, f, roomId).Success?;
    assert Repo.GetRoomMemberByWhere(db, f, caller.id, roomId).Success?;
    var member := FindMembership(db, f, caller, roomId).value;
    var row :| row in db.members && member == ToMember(row);
    var i :| 0 <= i < |db.members| && db.members[i] == row;
    RoomSql.DeleteRoomMemberExactlyOne(db, f, i);
  }

  /** `getRoomMembers` as written: the listing is filtered by the caller's own id too. */
  function GetRoomMembersAsWritten(db: Db, f: Faults, caller: User, roomId: Id): (r: Result<seq<RoomMember>, ApiError>)
    ensures r.Success? && |r.value| > 0 ==> Repo.IsMember(db, caller.id, roomId)
    ensures r.Success? ==> forall m :: m in r.value ==> m.userId == caller.id && m.roomId == roomId
  {
    var _ :- FindRoom(db, f, roomId);
    var _ :- FindMembership(db, f, caller, roomId);
    match Repo.GetRoomMembers(db, f, Some(roomId), Some(caller.id))
    case Success(members) =>
      var rows := RoomSql.GetRoomMembers(db, f, Some(roomId), Some(caller.id)).value;
      assert forall i :: 0 <= i < |members| ==> rows[i] in rows;
      Success(members)
    case Failure(NoRows) => Success([])
    case Failure(e) => Failure(Internal(e))
  }

  /** Room 1, created by user 2, with the memberships of users 2 and 5. */
  const TwoMemberRoom := Empty.(
    rooms := [RoomRow(1, "Physics", "all about physics", 3, 2, 1, 1)],
    members := [MemberRow(3, 1, 2, 2, 2), MemberRow(4, 1, 5, 3, 3)],
    nextId := 6, clock := 4)

  const RoomCreator2 := User(2, 0, 0, "Chimezie", "Edeh", "princecee15@gmail.com")

  /** In that store user 2 finds the room and their membership of it. */
  lemma TwoMemberRoomLookups()
    ensures FindRoom(TwoMemberRoom, {}, 1).Success?
    ensures FindMembership(TwoMemberRoom, {}, RoomCreator2, 1).Success?
  {
    var db := TwoMemberRoom;
    assert db.rooms[1..] == [];
    assert FirstWhere(db.rooms, RoomId, 1) == Some(db.rooms[0]);
    assert FirstWhere(db.members, MemberPair, (1, 2)) == Some(db.members[0]);
  }

  /** In that store the room's listing filtered by user 2 is their row alone. */
  lemma TwoMemberRoomOwnListing()
    ensures Repo.GetRoomMembers(TwoMemberRoom, {}, Some(1), Some(2)) == Success([ToMember(TwoMemberRoom.members[0])])
  {
    var db := TwoMemberRoom;
    var m0, m1 := db.members[0], db.members[1];
    assert db.members[1..] == [m1];
    assert [m1][1..] == [];
    assert Where(db.members, MemberRoom, Some(1)) == db.members;
    assert Where(db.members, MemberUser, Some(2)) == [m0];
    assert RoomSql.GetRoomMembers(db, {}, Some(1), Some(2)).value == [m0];
    var own := Repo.GetRoomMembers(db, {}, Some(1), Some(2)).value;
    assert |own| == 1 && own[0] == ToMember(m0);
    assert own == [ToMember(m0)];
  }

  /** In that store the room's unfiltered listing is both rows. */
  lemma TwoMemberRoomFullListing()
    ensures Repo.GetRoomMembers(TwoMemberRoom, {}, Some(1), None) == Success([ToMember(TwoMemberRoom.members[0]), ToMember(TwoMemberRoom.members[1])])
  {
    var db := TwoMemberRoom;
    var m0, m1 := db.members[0], db.members[1];
    assert db.members[1..] == [m1];
    assert [m1][1..] == [];
    assert Where(db.members, MemberRoom, Some(1)) == db.members;
    assert RoomSql.GetRoomMembers(db, {}, Some(1), None).value == [m0, m1];
    var all := Repo.GetRoomMembers(db, {}, Some(1), None).value;
    assert |all| == 2 && all[0] == ToMember(m0) && all[1] == ToMember(m1);
    assert all == [ToMember(m0), ToMember(m1)];
  }

  /** Finding: a room with two members lists only the caller. */
  lemma GetRoomMembersAsWrittenHidesOthers()
    ensures GetRoomMembersAsWritten(TwoMemberRoom, {}, RoomCreator2, 1) == Success([ToMember(TwoMemberRoom.members[0])])
    ensures GetRoomMembers(TwoMemberRoom, {}, RoomCreator2, 1) == Success([ToMember(TwoMemberRoom.members[0]), ToMember(TwoMemberRoom.members[1])])
  {
    TwoMemberRoomLookups();
    TwoMemberRoomOwnListing();
    TwoMemberRoomFullListing();
  }

  /** `getRoomMembers` as intended: a member sees every membership of the room, in store order. */
  function GetRoomMembers(db: Db, f: Faults, caller: User, roomId: Id): (r: Result<seq<RoomMember>, ApiError>)
    ensures GetRoomQuery !in f ==> ((forall i :: 0 <= i < |db.rooms| ==> db.rooms[i].id != roomId) <==> r == Failure(ApiError(NotFound, NotFoundText)))
    ensures Repo.GetRoom(db, f, roomId).Success? && GetRoomMemberByWhereQuery !in f && !Repo.IsMember(db, caller.id, roomId) ==>
      r == Failure(NotMember400)
    ensures r.Success? ==> Repo.IsMember(db, caller.id, roomId)
    ensures r.Success? ==> forall m :: m in r.value <==> exists row :: row in db.members && row.roomId == roomId && m == ToMember(row)
    ensures r.Success? ==>
      && GetRoomMembersQuery !in f
      && var rows := RoomSql.GetRoomMembers(db, f, Some(roomId), None).value;
      |r.value| == |rows| && forall i :: 0 <= i < |rows| ==> r.value[i] == ToMember(rows[i])
    ensures r.Success? <==>
      GetRoomQuery !in f && GetRoomMemberByWhereQuery !in f && GetRoomMembersQuery !in f
      && Repo.RoomExists(db, roomId) && Repo.IsMember(db, caller.id, roomId)
  {
    var _ :- FindRoom(db, f, roomId);
    var _ :- FindMembership(db, f, caller, roomId);
    match Repo.GetRoomMembers(db, f, Some(roomId), None)
    case Success(members) =>
      Repo.RoomMembersContents(db, f, roomId);
      Success(members)
    case Failure(NoRows) => Success([])
    case Failure(e) => Failure(Internal(e))
  }

  /** `getRoomMessages`: a member sees every message of the room, in store order. */
  function GetRoomMessages(db: Db, f: Faults, caller: User, roomId: Id): (r: Result<seq<RoomMessage>, ApiError>)
    ensures GetRoomQuery !in f ==> ((forall i :: 0 <= i < |db.rooms| ==> db.rooms[i].id != roomId) <==> r == Failure(ApiError(NotFound, NotFoundText)))
    ensures Repo.GetRoom(db, f, roomId).Success? && GetRoomMemberByWhereQuery !in f && !Repo.IsMember(db, caller.id, roomId) ==>
      r == Failure(NotMember400)
    ensures r.Success? ==> Repo.IsMember(db, caller.id, roomId)
    ensures r.Success? ==> forall m :: m in r.value <==> exists row :: row in db.messages && row.roomId == roomId && m == ToMessage(row)
    ensures r.Success? ==>
      && GetRoomMessagesQuery !in f
      && var rows := RoomSql.GetRoomMessages(db, f, Some(roomId), None, None).value;
      |r.value| == |rows| && forall i :: 0 <= i < |rows| ==> r.value[i] == ToMessage(rows[i])
    ensures r.Success? <==>
      GetRoomQuery !in f && GetRoomMemberByWhereQuery !in f && GetRoomMessagesQuery !in f
      && Repo.RoomExists(db, roomId) && Repo.IsMember(db, caller.id, roomId)
  {
    var _ :- FindRoom(db, f, roomId);
    var _ :- FindMembership(db, f, caller, roomId);
    match Repo.GetRoomMessages(db, f, Some(roomId), None, None)
    case Success(messages) =>
      Repo.RoomMessagesContents(db, f, roomId);
      Success(messages)
    case Failure(NoRows) => Success([])
    case Failure(e) => Failure(Internal(e))
  }
}

=== FILE: room_repository.dfy ===
/** The room repository: converts between domain records and store rows, writes the
    store-assigned id and timestamps back into the record it was given, and stamps
    updates with the current time. */
module RoomRepository {
  import opened Wrappers
  import opened Seqs
  import opened Db
  import RoomSql
  import opened Models

  /** `CreateRoom`: inserts the room (its `MaxMembers` narrowed to `int32`) and writes the
      new id and timestamps back; every other field of the record stays as given. */
  function CreateRoom(db: Db, f: Faults, room: Room): (r: Result<Saved<Room>, DbError>)
    ensures r.Failure? <==> CreateRoomQuery in f
    ensures r.Failure? ==> r.error == StoreError
    ensures r.Success? ==>
      var saved := r.value.value;
      && saved.(id := room.id, createdAt := room.createdAt, updatedAt := room.updatedAt) == room
      && saved.createdAt == saved.updatedAt
      && r.value.db.rooms == db.rooms + [RoomRow(saved.id, room.name, room.description, Int32(room.maxMembers), room.createdBy, saved.createdAt, saved.updatedAt)]
      && r.value.db.(rooms := db.rooms, nextId := db.nextId, clock := db.clock) == db
  {
    var ins :- RoomSql.CreateRoom(db, f, room.name, room.description, Int32(room.maxMembers), room.createdBy);
    Success(Saved(room.(id := ins.id, createdAt := ins.createdAt, updatedAt := ins.updatedAt), ins.db))
  }

  /** The row-to-record mapping of `GetRoom` and `GetRooms` as written: `MaxMembers` is
      never copied, so it reads as Go's zero value. */
  function ToRoomAsWritten(row: RoomRow): (r: Room)
    ensures r.maxMembers == 0
    ensures r == ToRoom(row).(maxMembers := 0)
  {
    Room(row.id, row.createdAt, row.updatedAt, row.name, row.description, 0, row.createdBy)
  }

  /** The complete mapping, copying `MaxMembers` as well. */
  function ToRoom(row: RoomRow): (r: Room)
    ensures r.id == row.id && r.name == row.name && r.description == row.description
    ensures r.maxMembers == row.maxMembers && r.createdBy == row.createdBy
    ensures r.createdAt == row.createdAt && r.updatedAt == row.updatedAt
  {
    Room(row.id, row.createdAt, row.updatedAt, row.name, row.description, row.maxMembers, row.createdBy)
  }

  /** `GetRoom` exactly as written. */
  function GetRoomAsWritten(db: Db, f: Faults, id: Id): (r: Result<Room, DbError>)
    ensures r.Success? ==> r.value.maxMembers == 0 && r.value.id == id
    ensures r.Failure? <==> RoomSql.GetRoom(db, f, id).Failure?
  {
    var row :- RoomSql.GetRoom(db, f, id);
    Success(ToRoomAsWritten(row))
  }

  /** `GetRoom` with the room's capacity copied: the stored room, field for field. */
  function GetRoom(db: Db, f: Faults, id: Id): (r: Result<Room, DbError>)
    ensures r.Success? ==> r.value.id == id && exists row :: row in db.rooms && row.id == id && r.value == ToRoom(row)
    ensures GetRoomQuery in f ==> r == Failure(StoreError)
    ensures GetRoomQuery !in f ==> (r == Failure(NoRows) <==> forall i :: 0 <= i < |db.rooms| ==> db.rooms[i].id != id)
    ensures GetRoomQuery !in f ==> r.Success? || r == Failure(NoRows)
  {
    var row :- RoomSql.GetRoom(db, f, id);
    Success(ToRoom(row))
  }

  /** `GetRooms` as written: the rooms of one creator, or all of them, without their capacity. */
  function GetRoomsAsWritten(db: Db, f: Faults, createdBy: Option<Id>): (r: Result<seq<Room>, DbError>)
    ensures r.Failure? <==> GetRoomsQuery in f
    ensures r.Success? ==> forall i :: 0 <= i < |r.value| ==> r.value[i].maxMembers == 0
    ensures r.Success? ==>
      var rows := RoomSql.GetRooms(db, f, createdBy).value;
      |r.value| == |rows| && forall i :: 0 <= i < |rows| ==> r.value[i] == ToRoom(rows[i]).(maxMembers := 0)
  {
    var rows :- RoomSql.GetRooms(db, f, createdBy);
    Success(seq(|rows|, i requires 0 <= i < |rows| => ToRoomAsWritten(rows[i])))
  }

  /** `GetRooms` with capacities copied: one record per matching row, in store order. */
  function GetRooms(db: Db, f: Faults, createdBy: Option<Id>): (r: Result<seq<Room>, DbError>)
    ensures r.Failure? <==> GetRoomsQuery in f
    ensures r.Failure? ==> r.error == StoreError
    ensures r.Success? ==> forall x :: x in r.value <==> exists row :: row in db.rooms && Passes(RoomCreator, createdBy, row) && x == ToRoom(row)
    ensures r.Success? && createdBy.None? ==> |r.value| == |db.rooms| && forall i :: 0 <= i < |db.rooms| ==> r.value[i] == ToRoom(db.rooms[i])
  {
    var rows :- RoomSql.GetRooms(db, f, createdBy);
    var rooms := seq(|rows|, i requires 0 <= i < |rows| => ToRoom(rows[i]));
    MapContents(rows, rooms, ToRoom);
    Success(rooms)
  }

  /** Removes the row with the given id from `rooms`, if there is one; the rest of the store is untouched. */
  function DeleteRoom(db: Db, f: Faults, id: Id): (r: Result<Db, DbError>)
    ensures r.Failure? <==> DeleteRoomQuery in f
    ensures r.Success? ==> (forall x :: x in r.value.rooms <==> x in db.rooms && x.id != id) && r.value.(rooms := db.rooms) == db
  {
    RoomSql.DeleteRoom(db, f, id)
  }

  /** `UpdateRoom`: stamps the record with the current time, then writes its name,
      description, narrowed capacity and new stamp to the row with its id. */
  function UpdateRoom(db: Db, f: Faults, room: Room): (r: Result<Saved<Room>, DbError>)
    ensures r.Failure? <==> UpdateRoomQuery in f
    ensures r.Success? ==>
      && r.value.value == room.(updatedAt := db.clock)
      && r.value.db.clock == db.clock + 1
      && r.value.db.(rooms := db.rooms, clock := db.clock) == db
      && |r.value.db.rooms| == |db.rooms|
      && forall i :: 0 <= i < |db.rooms| ==>
           r.value.db.rooms[i] == if db.rooms[i].id == room.id
             then db.rooms[i].(name := room.name, description := room.description, maxMembers := Int32(room.maxMembers), updatedAt := db.clock)
             else db.rooms[i]
  {
    var s := Tick(db);
    var stamped := room.(updatedAt := s.now);
    var db' :- RoomSql.UpdateRoom(s.db, f, s.now, room.name, room.description, Int32(room.maxMembers), room.id);
    Success(Saved(stamped, db'))
  }

  /** `CreateRoomMember`: inserts the membership and writes back its id and timestamps;
      `RoomID` and `UserID` stay as given. */
  function CreateRoomMember(db: Db, f: Faults, member: RoomMember): (r: Result<Saved<RoomMember>, DbError>)
    ensures r.Failure? <==> CreateRoomMemberQuery in f
    ensures r.Failure? ==> r.error == StoreError
    ensures r.Success? ==>
      var saved := r.value.value;
      && saved.(id := member.id, createdAt := member.createdAt, updatedAt := member.updatedAt) == member
      && r.value.db.members == db.members + [MemberRow(saved.id, member.roomId, member.userId, saved.createdAt, saved.updatedAt)]
      && r.value.db.(members := db.members, nextId := db.nextId, clock := db.clock) == db
  {
    var ins :- RoomSql.CreateRoomMember(db, f, member.roomId, member.userId);
    Success(Saved(member.(id := ins.id, createdAt := ins.createdAt, updatedAt := ins.updatedAt), ins.db))
  }

  function GetRoomMember(db: Db, f: Faults, id: Id): (r: Result<RoomMember, DbError>)
    ensures r.Success? ==> r.value.id == id && exists row :: row in db.members && r.value == ToMember(row)
    ensures r.Failure? <==> RoomSql.GetRoomMember(db, f, id).Failure?
  {
    var row :- RoomSql.GetRoomMember(db, f, id);
    Success(ToMember(row))
  }

  /** `GetRoomMembers`: maps the filtered rows one to one, in store order. */
  function GetRoomMembers(db: Db, f: Faults, roomId: Option<Id>, userId: Option<Id>): (r: Result<seq<RoomMember>, DbError>)
    ensures r.Failure? <==> GetRoomMembersQuery in f
    ensures r.Failure? ==> r.error == StoreError
    ensures r.Success? ==>
      var rows := RoomSql.GetRoomMembers(db, f, roomId, userId).value;
      |r.value| == |rows| && forall i :: 0 <= i < |rows| ==> r.value[i] == ToMember(rows[i])
  {
    var rows :- RoomSql.GetRoomMembers(db, f, roomId, userId);
    Success(seq(|rows|, i requires 0 <= i < |rows| => ToMember(rows[i])))
  }

  /** Removes the row with the given id from `members`, if there is one; the rest of the store is untouched. */
  function DeleteRoomMember(db: Db, f: Faults, id: Id): (r: Result<Db, DbError>)
    ensures r.Failure? <==> DeleteRoomMemberQuery in f
    ensures r.Success? ==> (forall x :: x in r.value.members <==> x in db.members && x.id != id) && r.value.(members := db.members) == db
  {
    RoomSql.DeleteRoomMember(db, f, id)
  }

  /** The first membership of `userId` in `roomId`, or `NoRows`. Its definition is not in the
      source; its callers read `NoRows` as "not a member". */
  function GetRoomMemberByWhere(db: Db, f: Faults, userId: Id, roomId: Id): (r: Result<RoomMember, DbError>)
    ensures r.Success? ==> r.value.userId == userId && r.value.roomId == roomId
    ensures r.Success? ==> exists row :: row in db.members && r.value == ToMember(row)
    ensures GetRoomMemberByWhereQuery in f ==> r == Failure(StoreError)
    ensures GetRoomMemberByWhereQuery !in f ==>
      (r == Failure(NoRows) <==> !IsMember(db, userId, roomId))
    ensures GetRoomMemberByWhereQuery !in f ==> r.Success? || r == Failure(NoRows)
  {
    if GetRoomMemberByWhereQuery in f then Failure(StoreError)
    else
      match FirstWhere(db.members, MemberPair, (roomId, userId))
      case Some(row) => Success(ToMember(row))
      case None => Failure(NoRows)
  }

  /** Whether the store holds a membership of `userId` in `roomId`. */
  predicate IsMember(db: Db, userId: Id, roomId: Id) {
    exists i :: 0 <= i < |db.members| && MemberPair(db.members[i]) == (roomId, userId)
  }

  /** Whether the store holds a room with that id. */
  predicate RoomExists(db: Db, roomId: Id) {
    exists i :: 0 <= i < |db.rooms| && db.rooms[i].id == roomId
  }

  /** The memberships listed for a room are exactly the records of its rows. */
  lemma RoomMembersContents(db: Db, f: Faults, roomId: Id)
    requires GetRoomMembersQuery !in f
    ensures forall m :: m in GetRoomMembers(db, f, Some(roomId), None).value <==>
      exists row :: row in db.members && row.roomId == roomId && m == ToMember(row)
  {
    var rows := RoomSql.GetRoomMembers(db, f, Some(roomId), None).value;
    MapContents(rows, GetRoomMembers(db, f, Some(roomId), None).value, ToMember);
    assert forall row :: row in rows <==> row in db.members && row.roomId == roomId;
  }

  /** The messages listed for a room are exactly the records of its rows. */
  lemma RoomMessagesContents(db: Db, f: Faults, roomId: Id)
    requires GetRoomMessagesQuery !in f
    ensures forall m :: m in GetRoomMessages(db, f, Some(roomId), None, None).value <==>
      exists row :: row in db.messages && row.roomId == roomId && m == ToMessage(row)
  {
    var rows := RoomSql.GetRoomMessages(db, f, Some(roomId), None, None).value;
    MapContents(rows, GetRoomMessages(db, f, Some(roomId), None, None).value, ToMessage);
    assert forall row :: row in rows <==> row in db.messages && row.roomId == roomId;
  }

  /** The number of membership rows of a room. */
  function MemberCount(db: Db, roomId: Id): nat {
    |Where(db.members, MemberRoom, Some(roomId))|
  }

  function GetRoomMemberCount(db: Db, f: Faults, roomId: Id): (r: Result<nat, DbError>)
    ensures r.Failure? <==> GetRoomMemberCountQuery in f
    ensures r.Success? ==> r.value == MemberCount(db, roomId)
  {
    if GetRoomMemberCountQuery in f then Failure(StoreError) else Success(MemberCount(db, roomId))
  }

  /** `CreateRoomMessage`: inserts the message and writes back its id and timestamps;
      room, member, user and content stay as given. */
  function CreateRoomMessage(db: Db, f: Faults, message: RoomMessage): (r: Result<Saved<RoomMessage>, DbError>)
    ensures r.Failure? <==> CreateRoomMessageQuery in f
    ensures r.Failure? ==> r.error == StoreError
    ensures r.Success? ==>
      var saved := r.value.value;
      && saved.(id := message.id, createdAt := message.createdAt, updatedAt := message.updatedAt) == message
      && r.value.db.messages == db.messages + [MessageRow(saved.id, message.roomId, message.roomMemberId, message.userId, message.content, saved.createdAt, saved.updatedAt)]
      && r.value.db.(messages := db.messages, nextId := db.nextId, clock := db.clock) == db
  {
    var ins :- RoomSql.CreateRoomMessage(db, f, message.roomId, message.roomMemberId, message.userId, message.content);
    Success(Saved(message.(id := ins.id, createdAt := ins.createdAt, updatedAt := ins.updatedAt), ins.db))
  }

  function GetRoomMessage(db: Db, f: Faults, id: Id): (r: Result<RoomMessage, DbError>)
    ensures r.Success? ==> r.value.id == id && exists row :: row in db.messages && r.value == ToMessage(row)
    ensures r.Failure? <==> RoomSql.GetRoomMessage(db, f, id).Failure?
    ensures r.Failure? ==> r.error == RoomSql.GetRoomMessage(db, f, id).error
  {
    var row :- RoomSql.GetRoomMessage(db, f, id);
    Success(ToMessage(row))
  }

  /** `GetRoomMessages`: maps the filtered rows one to one, in store order. */
  function GetRoomMessages(db: Db, f: Faults, roomId: Option<Id>, roomMemberId: Option<Id>, userId: Option<Id>): (r: Result<seq<RoomMessage>, DbError>)
    ensures r.Failure? <==> GetRoomMessagesQuery in f
    ensures r.Success? ==>
      var rows := RoomSql.GetRoomMessages(db, f, roomId, roomMemberId, userId).value;
      |r.value| == |rows| && forall i :: 0 <= i < |rows| ==> r.value[i] == ToMessage(rows[i])
  {
    var rows :- RoomSql.GetRoomMessages(db, f, roomId, roomMemberId, userId);
    Success(seq(|rows|, i requires 0 <= i < |rows| => ToMessage(rows[i])))
  }

  /** Removes the row with the given id from `messages`, if there is one; the rest of the store is untouched. */
  function DeleteRoomMessage(db: Db, f: Faults, id: Id): (r: Result<Db, DbError>)
    ensures r.Failure? <==> DeleteRoomMessageQuery in f
    ensures r.Success? ==> (forall x :: x in r.value.messages <==> x in db.messages && x.id != id) && r.value.(messages := db.messages) == db
  {
    RoomSql.DeleteRoomMessage(db, f, id)
  }

  /** A room read back right after it is created is the record `CreateRoom` wrote back,
      as long as its capacity fits the `int32` column. */
  lemma CreateThenGetRoom(db: Db, f: Faults, g: Faults, room: Room)
    requires Valid(db) && CreateRoomQuery !in f && GetRoomQuery !in g
    requires -0x8000_0000 <= room.maxMembers <= 0x7fff_ffff
    ensures var c := CreateRoom(db, f, room); GetRoom(c.value.db, g, c.value.value.id) == Success(c.value.value)
  {
    var c := CreateRoom(db, f, room);
    var ins := RoomSql.CreateRoom(db, f, room.name, room.description, Int32(room.maxMembers), room.createdBy);
    var got := GetRoom(c.value.db, g, c.value.value.id);
    var last := c.value.db.rooms[|db.rooms|];
    assert last in c.value.db.rooms;
    var row :| row in c.value.db.rooms && row.id == c.value.value.id && got.value == ToRoom(row);
    assert row == last;
  }

  /** Finding: `GetRoom` as written loses the capacity of the room it reads. */
  lemma GetRoomDropsMaxMembers()
    ensures var c := CreateRoom(Empty, {}, Room(NilId, 0, 0, "Physics", "all about physics", 3, 1));
      && c.Success?
      && GetRoomAsWritten(c.value.db, {}, c.value.value.id).Success?
      && GetRoomAsWritten(c.value.db, {}, c.value.value.id).value.maxMembers != c.value.value.maxMembers
  {
    var c := CreateRoom(Empty, {}, Room(NilId, 0, 0, "Physics", "all about physics", 3, 1));
    assert c.value.db.rooms[0].id == c.value.value.id;
  }

  /** `UpdateRoom` stamps the record with a time later than the stamp it was read with. */
  lemma UpdateRoomAdvances(db: Db, f: Faults, g: Faults, room: Room)
    requires Valid(db) && UpdateRoomQuery !in f
    requires GetRoom(db, g, room.id).Success? && GetRoom(db, g, room.id).value.updatedAt == room.updatedAt
    ensures UpdateRoom(db, f, room).value.value.updatedAt > room.updatedAt
  {
    var row :| row in db.rooms && row.id == room.id && GetRoom(db, g, room.id).value == ToRoom(row);
  }

  /** An update of a stored room is what a later `GetRoom` returns: new name, description
      and capacity, the new stamp, and the stored creator and creation time. */
  lemma UpdateThenGetRoom(db: Db, f: Faults, g: Faults, room: Room)
    requires Valid(db) && UpdateRoomQuery !in f && GetRoomQuery !in g
    requires -0x8000_0000 <= room.maxMembers <= 0x7fff_ffff
    requires GetRoom(db, g, room.id).Success?
    requires var stored := GetRoom(db, g, room.id).value; room.createdBy == stored.createdBy && room.createdAt == stored.createdAt
    ensures var u := UpdateRoom(db, f, room); GetRoom(u.value.db, g, room.id) == Success(u.value.value)
  {
    var stored := GetRoom(db, g, room.id).value;
    var before :| before in db.rooms && before.id == room.id && stored == ToRoom(before);
    var u := UpdateRoom(db, f, room).value;
    UpdatedRowFirst(db, f, room, before);
    var row := before.(name := room.name, description := room.description, maxMembers := Int32(room.maxMembers), updatedAt := db.clock);
    assert RoomSql.GetRoom(u.db, g, room.id) == Success(row);
    assert ToRoom(row) == u.value;
  }

  /** After the update, the first row with the room's id is the stored row carrying the
      new values. */
  lemma UpdatedRowFirst(db: Db, f: Faults, room: Room, before: RoomRow)
    requires Valid(db) && UpdateRoomQuery !in f
    requires before in db.rooms && before.id == room.id
    ensures FirstWhere(UpdateRoom(db, f, room).value.db.rooms, RoomId, room.id) ==
      Some(before.(name := room.name, description := room.description, maxMembers := Int32(room.maxMembers), updatedAt := db.clock))
  {
    var rooms := UpdateRoom(db, f, room).value.db.rooms;
    var i :| 0 <= i < |db.rooms| && db.rooms[i] == before;
    assert rooms[i].id == room.id;
    var found := FirstWhere(rooms, RoomId, room.id).value;
    var j :| 0 <= j < |rooms| && rooms[j] == found;
    assert db.rooms[j] in db.rooms;
    AscendingUnique(db.rooms, RoomId, db.rooms[j], before);
  }
}

=== FILE: room_service.dfy ===
/** The two room rules the service layer adds on top of the repository: whoever creates a
    room becomes its first member, and a join is refused once a room holds as many
    memberships as its stored capacity. */
module RoomService {
  import opened Wrappers
  import opened Seqs
  import opened Db
  import RoomSql
  import Repo = RoomRepository
  import opened Models

  datatype ServiceError = Store(cause: DbError) | MaxMembersReached

  const MaxMembersMessage := "max room members reached"

  function Lift<T>(r: Result<T, DbError>): (s: Result<T, ServiceError>)
    ensures s.Success? <==> r.Success?
    ensures s.Success? ==> s.value == r.value
    ensures s.Failure? ==> s.error == Store(r.error)
  {
    match r
    case Success(v) => Success(v)
    case Failure(e) => Failure(Store(e))
  }

  /** Creates the room and then the creator's membership of it, with no capacity check. */
  function CreateRoom(db: Db, f: Faults, room: Room): (r: Result<Saved<Room>, ServiceError>)
    ensures r.Failure? <==> CreateRoomQuery in f || CreateRoomMemberQuery in f
    ensures r.Success? ==>
      && r.value.value == Repo.CreateRoom(db, f, room).value.value
      && r.value.db.rooms == Repo.CreateRoom(db, f, room).value.db.rooms
      && |r.value.db.members| == |db.members| + 1
      && r.value.db.members[..|db.members|] == db.members
      && r.value.db.members[|db.members|].roomId == r.value.value.id
      && r.value.db.members[|db.members|].userId == room.createdBy
    ensures r.Success? ==> r.value.db.(rooms := db.rooms, members := db.members, nextId := db.nextId, clock := db.clock) == db
  {
    var created :- Lift(Repo.CreateRoom(db, f, room));
    var joined :- Lift(Repo.CreateRoomMember(created.db, f, RoomMember(NilId, 0, 0, created.value.id, room.createdBy)));
    Success(Saved(created.value, joined.db))
  }

  /** Adds a membership unless the room already holds `max_members` of them. */
  function JoinRoom(db: Db, f: Faults, member: RoomMember): (r: Result<Saved<RoomMember>, ServiceError>)
    ensures r.Success? ==>
      && RoomSql.GetRoom(db, f, member.roomId).Success?
      && Repo.MemberCount(db, member.roomId) < RoomSql.GetRoom(db, f, member.roomId).value.maxMembers
      && r.value.value.(id := member.id, createdAt := member.createdAt, updatedAt := member.updatedAt) == member
      && r.value.db.members == db.members + [MemberRow(r.value.value.id, member.roomId, member.userId, r.value.value.createdAt, r.value.value.updatedAt)]
      && r.value.db.(members := db.members, nextId := db.nextId, clock := db.clock) == db
    ensures r == Failure(MaxMembersReached) <==>
      && GetRoomQuery !in f && GetRoomMemberCountQuery !in f
      && RoomSql.GetRoom(db, f, member.roomId).Success?
      && Repo.MemberCount(db, member.roomId) >= RoomSql.GetRoom(db, f, member.roomId).value.maxMembers
    ensures r.Success? <==>
      && GetRoomQuery !in f && GetRoomMemberCountQuery !in f && CreateRoomMemberQuery !in f
      && RoomSql.GetRoom(db, f, member.roomId).Success?
      && Repo.MemberCount(db, member.roomId) < RoomSql.GetRoom(db, f, member.roomId).value.maxMembers
  {
    var room :- Lift(RoomSql.GetRoom(db, f, member.roomId));
    var count :- Lift(Repo.GetRoomMemberCount(db, f, member.roomId));
    if count >= room.maxMembers then Failure(MaxMembersReached)
    else Lift(Repo.CreateRoomMember(db, f, member))
  }

  /** Deletes a membership by its id. */
  function LeaveRoom(db: Db, f: Faults, memberId: Id): (r: Result<Db, ServiceError>)
    ensures r.Failure? <==> DeleteRoomMemberQuery in f
    ensures r.Success? ==> (forall m :: m in r.value.members <==> m in db.members && m.id != memberId) && r.value.(members := db.members) == db
  {
    Lift(Repo.DeleteRoomMember(db, f, memberId))
  }

  /** A new room holds exactly one membership, its creator's, provided no earlier
      membership names an id the store has not handed out yet. */
  lemma CreatorIsOnlyMember(db: Db, f: Faults, room: Room)
    requires forall m :: m in db.members ==> m.roomId < db.nextId
    requires CreateRoom(db, f, room).Success?
    ensures var c := CreateRoom(db, f, room);
      Where(c.value.db.members, MemberRoom, Some(c.value.value.id)) == [c.value.db.members[|db.members|]]
  {
    var c := CreateRoom(db, f, room);
    var id := c.value.value.id;
    assert id == db.nextId;
    var members := c.value.db.members;
    var last := members[|db.members|];
    assert members == db.members + [last];
    WhereConcat(db.members, [last], MemberRoom, Some(id));
    WhereNone(db.members, MemberRoom, id);
    assert [last][1..] == [];
  }

  /** A successful join keeps the room within its capacity, and adds exactly one membership. */
  lemma JoinRespectsCapacity(db: Db, f: Faults, member: RoomMember)
    requires JoinRoom(db, f, member).Success?
    ensures var after := JoinRoom(db, f, member).value.db;
      && Repo.MemberCount(after, member.roomId) == Repo.MemberCount(db, member.roomId) + 1
      && Repo.MemberCount(after, member.roomId) <= RoomSql.GetRoom(db, f, member.roomId).value.maxMembers
  {
    var after := JoinRoom(db, f, member).value.db;
    var row := after.members[|db.members|];
    assert after.members == db.members + [row];
    WhereConcat(db.members, [row], MemberRoom, Some(member.roomId));
    assert [row][1..] == [];
  }

  /** Leaving a full room frees a place: the next join succeeds. */
  lemma LeaveThenJoin(db: Db, f: Faults, i: nat, member: RoomMember)
    requires Valid(db) && i < |db.members|
    requires DeleteRoomMemberQuery !in f && GetRoomQuery !in f && GetRoomMemberCountQuery !in f && CreateRoomMemberQuery !in f
    requires db.members[i].roomId == member.roomId
    requires RoomSql.GetRoom(db, f, member.roomId).Success?
    requires Repo.MemberCount(db, member.roomId) == RoomSql.GetRoom(db, f, member.roomId).value.maxMembers
    ensures JoinRoom(LeaveRoom(db, f, db.members[i].id).value, f, member).Success?
  {
    var left := LeaveRoom(db, f, db.members[i].id).value;
    RoomSql.DeleteRoomMemberExactlyOne(db, f, i);
    WhereWithout(db.members, MemberRoom, Some(member.roomId), i);
    assert left.rooms == db.rooms;
  }
}

=== FILE: room_sql.dfy ===
/** The generated room queries: inserts returning a server-assigned id and timestamps,
    deletes by id, single-row lookups, COALESCE-filtered scans and the room update. */
module RoomSql {
  import opened Wrappers
  import opened Seqs
  import opened Db

  /** `INSERT INTO rooms (name, description, max_members, created_by) ... RETURNING ...` */
  function CreateRoom(db: Db, f: Faults, name: string, description: string, maxMembers: int32, createdBy: Id): (r: Result<Inserted, DbError>)
    ensures r.Failure? <==> CreateRoomQuery in f
    ensures r.Failure? ==> r.error == StoreError
    ensures r.Success? ==>
      && r.value.db.rooms == db.rooms + [RoomRow(r.value.id, name, description, maxMembers, createdBy, r.value.createdAt, r.value.updatedAt)]
      && r.value.db.(rooms := db.rooms, nextId := db.nextId, clock := db.clock) == db
      && r.value.createdAt == r.value.updatedAt
    ensures r.Success? && Valid(db) ==> forall x :: x in db.rooms ==> x.id != r.value.id
  {
    if CreateRoomQuery in f then Failure(StoreError)
    else
      var s := Allocate(db);
      var row := RoomRow(s.id, name, description, maxMembers, createdBy, s.now, s.now);
      Success(Inserted(s.id, s.now, s.now, s.db.(rooms := db.rooms + [row])))
  }

  /** `INSERT INTO room_members (room_id, user_id) ... RETURNING ...`; no uniqueness or capacity check. */
  function CreateRoomMember(db: Db, f: Faults, roomId: Id, userId: Id): (r: Result<Inserted, DbError>)
    ensures r.Failure? <==> CreateRoomMemberQuery in f
    ensures r.Failure? ==> r.error == StoreError
    ensures r.Success? ==>
      && r.value.db.members == db.members + [MemberRow(r.value.id, roomId, userId, r.value.createdAt, r.value.updatedAt)]
      && r.value.db.(members := db.members, nextId := db.nextId, clock := db.clock) == db
      && r.value.createdAt == r.value.updatedAt
    ensures r.Success? && Valid(db) ==> forall x :: x in db.members ==> x.id != r.value.id
  {
    if CreateRoomMemberQuery in f then Failure(StoreError)
    else
      var s := Allocate(db);
      var row := MemberRow(s.id, roomId, userId, s.now, s.now);
      Success(Inserted(s.id, s.now, s.now, s.db.(members := db.members + [row])))
  }

  /** `INSERT INTO room_messages (room_id, room_member_id, user_id, content) ... RETURNING ...` */
  function CreateRoomMessage(db: Db, f: Faults, roomId: Id, roomMemberId: Id, userId: Id, content: string): (r: Result<Inserted, DbError>)
    ensures r.Failure? <==> CreateRoomMessageQuery in f
    ensures r.Failure? ==> r.error == StoreError
    ensures r.Success? ==>
      && r.value.db.messages == db.messages + [MessageRow(r.value.id, roomId, roomMemberId, userId, content, r.value.createdAt, r.value.updatedAt)]
      && r.value.db.(messages := db.messages, nextId := db.nextId, clock := db.clock) == db
      && r.value.createdAt == r.value.updatedAt
    ensures r.Success? && Valid(db) ==> forall x :: x in db.messages ==> x.id != r.value.id
  {
    if CreateRoomMessageQuery in f then Failure(StoreError)
    else
      var s := Allocate(db);
      var row := MessageRow(s.id, roomId, roomMemberId, userId, content, s.now, s.now);
      Success(Inserted(s.id, s.now, s.now, s.db.(messages := db.messages + [row])))
  }

  /** `DELETE FROM rooms WHERE id = $1`: an absent id deletes nothing and is not an error. */
  function DeleteRoom(db: Db, f: Faults, id: Id): (r: Result<Db, DbError>)
    ensures r.Failure? <==> DeleteRoomQuery in f
    ensures r.Failure? ==> r.error == StoreError
    ensures r.Success? ==>
      && (forall x :: x in r.value.rooms <==> x in db.rooms && x.id != id)
      && r.value.(rooms := db.rooms) == db
      && ((forall i :: 0 <= i < |db.rooms| ==> db.rooms[i].id != id) ==> r.value == db)
  {
    if DeleteRoomQuery in f then Failure(StoreError)
    else
      Success(db.(rooms := RemoveKey(db.rooms, RoomId, id)))
  }

  /** `DELETE FROM room_members WHERE id = $1`. */
  function DeleteRoomMember(db: Db, f: Faults, id: Id): (r: Result<Db, DbError>)
    ensures r.Failure? <==> DeleteRoomMemberQuery in f
    ensures r.Failure? ==> r.error == StoreError
    ensures r.Success? ==>
      && (forall x :: x in r.value.members <==> x in db.members && x.id != id)
      && r.value.(members := db.members) == db
      && ((forall i :: 0 <= i < |db.members| ==> db.members[i].id != id) ==> r.value == db)
  {
    if DeleteRoomMemberQuery in f then Failure(StoreError)
    else
      Success(db.(members := RemoveKey(db.members, MemberId, id)))
  }

  /** `DELETE FROM room_messages WHERE id = $1`. */
  function DeleteRoomMessage(db: Db, f: Faults, id: Id): (r: Result<Db, DbError>)
    ensures r.Failure? <==> DeleteRoomMessageQuery in f
    ensures r.Failure? ==> r.error == StoreError
    ensures r.Success? ==>
      && (forall x :: x in r.value.messages <==> x in db.messages && x.id != id)
      && r.value.(messages := db.messages) == db
      && ((forall i :: 0 <= i < |db.messages| ==> db.messages[i].id != id) ==> r.value == db)
  {
    if DeleteRoomMessageQuery in f then Failure(StoreError)
    else
      Success(db.(messages := RemoveKey(db.messages, MessageId, id)))
  }

  /** A single-row lookup: the row, or `NoRows` when nothing matched. */
  function Single<T>(row: Option<T>): (r: Result<T, DbError>)
    ensures r.Success? <==> row.Some?
    ensures r.Success? ==> r.value == row.value
    ensures r.Failure? ==> r.error == NoRows
  {
    match row
    case Some(x) => Success(x)
    case None => Failure(NoRows)
  }

  /** `SELECT ... FROM rooms WHERE id = $1 LIMIT 1`. */
  function GetRoom(db: Db, f: Faults, id: Id): (r: Result<RoomRow, DbError>)
    ensures r.Success? ==> r.value in db.rooms && r.value.id == id
    ensures GetRoomQuery in f ==> r == Failure(StoreError)
    ensures GetRoomQuery !in f ==> (r == Failure(NoRows) <==> forall i :: 0 <= i < |db.rooms| ==> db.rooms[i].id != id)
    ensures GetRoomQuery !in f ==> r.Success? || r == Failure(NoRows)
  {
    if GetRoomQuery in f then Failure(StoreError) else Single(FirstWhere(db.rooms, RoomId, id))
  }

  /** `SELECT ... FROM room_members WHERE id = $1 LIMIT 1`. */
  function GetRoomMember(db: Db, f: Faults, id: Id): (r: Result<MemberRow, DbError>)
    ensures r.Success? ==> r.value in db.members && r.value.id == id
    ensures GetRoomMemberQuery in f ==> r == Failure(StoreError)
    ensures GetRoomMemberQuery !in f ==> (r == Failure(NoRows) <==> forall i :: 0 <= i < |db.members| ==> db.members[i].id != id)
    ensures GetRoomMemberQuery !in f ==> r.Success? || r == Failure(NoRows)
  {
    if GetRoomMemberQuery in f then Failure(StoreError) else Single(FirstWhere(db.members, MemberId, id))
  }

  /** `SELECT ... FROM room_messages WHERE id = $1 LIMIT 1`. */
  function GetRoomMessage(db: Db, f: Faults, id: Id): (r: Result<MessageRow, DbError>)
    ensures r.Success? ==> r.value in db.messages && r.value.id == id
    ensures GetRoomMessageQuery in f ==> r == Failure(StoreError)
    ensures GetRoomMessageQuery !in f ==> (r == Failure(NoRows) <==> forall i :: 0 <= i < |db.messages| ==> db.messages[i].id != id)
    ensures GetRoomMessageQuery !in f ==> r.Success? || r == Failure(NoRows)
  {
    if GetRoomMessageQuery in f then Failure(StoreError) else Single(FirstWhere(db.messages, MessageId, id))
  }

  /** `... WHERE room_id = COALESCE($1, room_id) AND user_id = COALESCE($2, user_id)`, in store order. */
  function GetRoomMembers(db: Db, f: Faults, roomId: Option<Id>, userId: Option<Id>): (r: Result<seq<MemberRow>, DbError>)
    ensures r.Failure? <==> GetRoomMembersQuery in f
    ensures r.Failure? ==> r.error == StoreError
    ensures r.Success? ==> forall m :: m in r.value <==> m in db.members && Passes(MemberRoom, roomId, m) && Passes(MemberUser, userId, m)
    ensures r.Success? && roomId.None? && userId.None? ==> r.value == db.members
    ensures r.Success? && Valid(db) ==> Ascending(r.value, MemberId)
  {
    if GetRoomMembersQuery in f then Failure(StoreError)
    else
      var byRoom := Where(db.members, MemberRoom, roomId);
      FilterKeepsAscending(db.members, MemberRoom, roomId, MemberId);
      FilterKeepsAscending(byRoom, MemberUser, userId, MemberId);
      Success(Where(byRoom, MemberUser, userId))
  }

  /** `... WHERE room_id = COALESCE($1, room_id) AND room_member_id = COALESCE($2, room_member_id)
      AND user_id = COALESCE($3, user_id)`, in store order. */
  function GetRoomMessages(db: Db, f: Faults, roomId: Option<Id>, roomMemberId: Option<Id>, userId: Option<Id>): (r: Result<seq<MessageRow>, DbError>)
    ensures r.Failure? <==> GetRoomMessagesQuery in f
    ensures r.Failure? ==> r.error == StoreError
    ensures r.Success? ==> forall m :: m in r.value <==>
      m in db.messages && Passes(MessageRoom, roomId, m) && Passes(MessageMember, roomMemberId, m) && Passes(MessageUser, userId, m)
    ensures r.Success? && roomId.None? && roomMemberId.None? && userId.None? ==> r.value == db.messages
    ensures r.Success? && Valid(db) ==> Ascending(r.value, MessageId)
  {
    if GetRoomMessagesQuery in f then Failure(StoreError)
    else
      var byRoom := Where(db.messages, MessageRoom, roomId);
      var byMember := Where(byRoom, MessageMember, roomMemberId);
      FilterKeepsAscending(db.messages, MessageRoom, roomId, MessageId);
      FilterKeepsAscending(byRoom, MessageMember, roomMemberId, MessageId);
      FilterKeepsAscending(byMember, MessageUser, userId, MessageId);
      Success(Where(byMember, MessageUser, userId))
  }

  /** `SELECT ... FROM rooms WHERE created_by = COALESCE($1, created_by)`, in store order. */
  function GetRooms(db: Db, f: Faults, createdBy: Option<Id>): (r: Result<seq<RoomRow>, DbError>)
    ensures r.Failure? <==> GetRoomsQuery in f
    ensures r.Failure? ==> r.error == StoreError
    ensures r.Success? ==> forall x :: x in r.value <==> x in db.rooms && Passes(RoomCreator, createdBy, x)
    ensures r.Success? && createdBy.None? ==> r.value == db.rooms
    ensures r.Success? && Valid(db) ==> Ascending(r.value, RoomId)
  {
    if GetRoomsQuery in f then Failure(StoreError)
    else
      FilterKeepsAscending(db.rooms, RoomCreator, createdBy, RoomId);
      Success(Where(db.rooms, RoomCreator, createdBy))
  }

  /** `UPDATE rooms SET updated_at = $1, name = $2, description = $3, max_members = $4 WHERE id = $5`:
      the matching row takes the four new values, keeping its id, creator and creation time;
      every other row and table is untouched. */
  function UpdateRoom(db: Db, f: Faults, updatedAt: Time, name: string, description: string, maxMembers: int32, id: Id): (r: Result<Db, DbError>)
    ensures r.Failure? <==> UpdateRoomQuery in f
    ensures r.Failure? ==> r.error == StoreError
    ensures r.Success? ==>
      && |r.value.rooms| == |db.rooms|
      && r.value.(rooms := db.rooms) == db
      && forall i :: 0 <= i < |db.rooms| ==>
        var was, now := db.rooms[i], r.value.rooms[i];
        && now.id == was.id && now.createdBy == was.createdBy && now.createdAt == was.createdAt
        && (was.id == id ==> now.updatedAt == updatedAt && now.name == name && now.description == description && now.maxMembers == maxMembers)
        && (was.id != id ==> now == was)
  {
    if UpdateRoomQuery in f then Failure(StoreError)
    else
      var rooms := seq(|db.rooms|, i requires 0 <= i < |db.rooms| =>
        if db.rooms[i].id == id then db.rooms[i].(updatedAt := updatedAt, name := name, description := description, maxMembers := maxMembers)
        else db.rooms[i]);
      Success(db.(rooms := rooms))
  }

  lemma CreateRoomKeepsValid(db: Db, f: Faults, name: string, description: string, maxMembers: int32, createdBy: Id)
    requires Valid(db)
    ensures var r := CreateRoom(db, f, name, description, maxMembers, createdBy); r.Success? ==> Valid(r.value.db)
  {
    var r := CreateRoom(db, f, name, description, maxMembers, createdBy);
    if r.Success? {
      WellFormedInsert(db.rooms, r.value.db.rooms[|db.rooms|], RoomId, RoomStamp, db.nextId, db.clock);
      KeepOtherTables(db, r.value.db);
    }
  }

  lemma CreateRoomMemberKeepsValid(db: Db, f: Faults, roomId: Id, userId: Id)
    requires Valid(db)
    ensures var r := CreateRoomMember(db, f, roomId, userId); r.Success? ==> Valid(r.value.db)
  {
    var r := CreateRoomMember(db, f, roomId, userId);
    if r.Success? {
      WellFormedInsert(db.members, r.value.db.members[|db.members|], MemberId, MemberStamp, db.nextId, db.clock);
      KeepOtherTables(db, r.value.db);
    }
  }

  lemma CreateRoomMessageKeepsValid(db: Db, f: Faults, roomId: Id, roomMemberId: Id, userId: Id, content: string)
    requires Valid(db)
    ensures var r := CreateRoomMessage(db, f, roomId, roomMemberId, userId, content); r.Success? ==> Valid(r.value.db)
  {
    var r := CreateRoomMessage(db, f, roomId, roomMemberId, userId, content);
    if r.Success? {
      WellFormedInsert(db.messages, r.value.db.messages[|db.messages|], MessageId, MessageStamp, db.nextId, db.clock);
      KeepOtherTables(db, r.value.db);
    }
  }

  lemma DeletesKeepValid(db: Db, f: Faults, id: Id)
    requires Valid(db)
    ensures DeleteRoom(db, f, id).Success? ==> Valid(DeleteRoom(db, f, id).value)
    ensures DeleteRoomMember(db, f, id).Success? ==> Valid(DeleteRoomMember(db, f, id).value)
    ensures DeleteRoomMessage(db, f, id).Success? ==> Valid(DeleteRoomMessage(db, f, id).value)
  {
    WellFormedRemove(db.rooms, RoomId, id, RoomId, RoomStamp, db.nextId, db.clock);
    WellFormedRemove(db.members, MemberId, id, MemberId, MemberStamp, db.nextId, db.clock);
    WellFormedRemove(db.messages, MessageId, id, MessageId, MessageStamp, db.nextId, db.clock);
  }

  /** An update stamped with a past clock reading keeps the store valid. */
  lemma UpdateRoomKeepsValid(db: Db, f: Faults, updatedAt: Time, name: string, description: string, maxMembers: int32, id: Id)
    requires Valid(db) && updatedAt < db.clock
    ensures var r := UpdateRoom(db, f, updatedAt, name, description, maxMembers, id); r.Success? ==> Valid(r.value)
  {
    var r := UpdateRoom(db, f, updatedAt, name, description, maxMembers, id);
    if r.Success? {
      var rooms := r.value.rooms;
      forall x | x in rooms ensures 1 <= x.id < db.nextId && x.updatedAt < db.clock {
        var i :| 0 <= i < |rooms| && rooms[i] == x;
        assert db.rooms[i] in db.rooms;
      }
    }
  }

  /** When ids are unique, the row a lookup finds after `UpdateRoom` is the stored row
      with the four new values. */
  lemma UpdateRoomThenLookup(db: Db, f: Faults, updatedAt: Time, name: string, description: string, maxMembers: int32, x: RoomRow)
    requires Ascending(db.rooms, RoomId) && UpdateRoomQuery !in f
    requires x in db.rooms
    ensures var u := UpdateRoom(db, f, updatedAt, name, description, maxMembers, x.id);
      FirstWhere(u.value.rooms, RoomId, x.id) == Some(x.(updatedAt := updatedAt, name := name, description := description, maxMembers := maxMembers))
  {
    var rooms := UpdateRoom(db, f, updatedAt, name, description, maxMembers, x.id).value.rooms;
    var i :| 0 <= i < |db.rooms| && db.rooms[i] == x;
    assert rooms[i].id == x.id;
    var found := FirstWhere(rooms, RoomId, x.id);
    var j :| 0 <= j < |rooms| && rooms[j] == found.value;
    assert db.rooms[j] in db.rooms;
    AscendingUnique(db.rooms, RoomId, db.rooms[j], x);
  }

  /** Once deleted, a room, membership or message is no longer found by its id. */
  lemma DeleteThenGet(db: Db, f: Faults, g: Faults, id: Id)
    requires DeleteRoomQuery !in f && DeleteRoomMemberQuery !in f && DeleteRoomMessageQuery !in f
    requires GetRoomQuery !in g && GetRoomMemberQuery !in g && GetRoomMessageQuery !in g
    ensures GetRoom(DeleteRoom(db, f, id).value, g, id) == Failure(NoRows)
    ensures GetRoomMember(DeleteRoomMember(db, f, id).value, g, id) == Failure(NoRows)
    ensures GetRoomMessage(DeleteRoomMessage(db, f, id).value, g, id) == Failure(NoRows)
  {
    var rooms := DeleteRoom(db, f, id).value.rooms;
    forall i | 0 <= i < |rooms| ensures rooms[i].id != id {
      assert rooms[i] in rooms;
    }
    var members := DeleteRoomMember(db, f, id).value.members;
    forall i | 0 <= i < |members| ensures members[i].id != id {
      assert members[i] in members;
    }
    var messages := DeleteRoomMessage(db, f, id).value.messages;
    forall i | 0 <= i < |messages| ensures messages[i].id != id {
      assert messages[i] in messages;
    }
  }

  /** In a valid store, deleting a membership by its id removes exactly that row and keeps
      the order of the rest. */
  lemma DeleteRoomMemberExactlyOne(db: Db, f: Faults, i: nat)
    requires Valid(db) && DeleteRoomMemberQuery !in f && i < |db.members|
    ensures DeleteRoomMember(db, f, db.members[i].id).value.members == db.members[..i] + db.members[i + 1..]
  {
    RemoveKeyAt(db.members, MemberId, i);
  }

  /** A message read back right after it is created is the inserted row. */
  lemma CreateThenGetRoomMessage(db: Db, f: Faults, g: Faults, roomId: Id, roomMemberId: Id, userId: Id, content: string)
    requires Valid(db) && CreateRoomMessageQuery !in f && GetRoomMessageQuery !in g
    ensures var c := CreateRoomMessage(db, f, roomId, roomMemberId, userId, content);
      GetRoomMessage(c.value.db, g, c.value.id) == Success(MessageRow(c.value.id, roomId, roomMemberId, userId, content, c.value.createdAt, c.value.updatedAt))
  {
    var c := CreateRoomMessage(db, f, roomId, roomMemberId, userId, content);
    var last := c.value.db.messages[|db.messages|];
    assert last in c.value.db.messages;
  }

  /** The rows a filtered scan returns keep their relative store order: scanning a table
      that grew by `extra` returns the old answer followed by the new rows' matches. */
  lemma {:induction false} ScanGrows(members: seq<MemberRow>, extra: seq<MemberRow>, roomId: Option<Id>, userId: Option<Id>)
    ensures Where(Where(members + extra, MemberRoom, roomId), MemberUser, userId)
         == Where(Where(members, MemberRoom, roomId), MemberUser, userId) + Where(Where(extra, MemberRoom, roomId), MemberUser, userId)
  {
    WhereConcat(members, extra, MemberRoom, roomId);
    WhereConcat(Where(members, MemberRoom, roomId), Where(extra, MemberRoom, roomId), MemberUser, userId);
  }
}

=== FILE: seqs.dfy ===
/** Table scans over sequences of rows: the filter, delete and lookup shapes
    every query of the store is built from. Rows keep their store order. */
module Seqs {
  import opened Wrappers

  /** Whether `x` passes the optional equality filter `column = COALESCE($n, column)`:
      an absent (NULL) filter passes every row. */
  predicate Passes<T, K(==)>(key: T -> K, k: Option<K>, x: T) {
    k.None? || key(x) == k.value
  }

  /** The rows of `s` that pass the filter on `key`, in store order. */
  function Where<T(!new), K(==)>(s: seq<T>, key: T -> K, k: Option<K>): (r: seq<T>)
    ensures |r| <= |s|
    ensures forall x :: x in r <==> x in s && Passes(key, k, x)
    ensures k.None? ==> r == s
  {
    if s == [] then []
    else
      assert forall x :: x in s <==> x == s[0] || x in s[1..];
      (if Passes(key, k, s[0]) then [s[0]] else []) + Where(s[1..], key, k)
  }

  /** The rows of `s` whose `key` differs from `k` (`DELETE ... WHERE key = k`). */
  function RemoveKey<T(!new), K(==)>(s: seq<T>, key: T -> K, k: K): (r: seq<T>)
    ensures |r| <= |s|
    ensures forall x :: x in r <==> x in s && key(x) != k
    ensures (forall i :: 0 <= i < |s| ==> key(s[i]) != k) ==> r == s
  {
    if s == [] then []
    else
      assert forall x :: x in s <==> x == s[0] || x in s[1..];
      (if key(s[0]) != k then [s[0]] else []) + RemoveKey(s[1..], key, k)
  }

  /** The first row whose `key` equals `k` (`SELECT ... WHERE key = k LIMIT 1`):
      the head of the filtered table, if any. */
  function FirstWhere<T(!new), K(==)>(s: seq<T>, key: T -> K, k: K): (r: Option<T>)
    ensures r.Some? ==> r.value in s && key(r.value) == k
    ensures r.None? <==> forall i :: 0 <= i < |s| ==> key(s[i]) != k
  {
    var w := Where(s, key, Some(k));
    assert (forall i :: 0 <= i < |s| ==> key(s[i]) != k) <==> |w| == 0 by {
      if |w| > 0 { assert w[0] in w; }
      if exists i :: 0 <= i < |s| && key(s[i]) == k {
        var i :| 0 <= i < |s| && key(s[i]) == k;
        assert s[i] in w;
      }
    }
    if |w| == 0 then None else assert w[0] in w; Some(w[0])
  }

  /** A table mapped row by row holds exactly the images of its rows. */
  lemma MapContents<T, U>(s: seq<T>, t: seq<U>, f: T -> U)
    requires |t| == |s| && forall i :: 0 <= i < |s| ==> t[i] == f(s[i])
    ensures forall x :: x in t <==> exists y :: y in s && x == f(y)
  {
    forall x | x in t ensures exists y :: y in s && x == f(y) {
      var i :| 0 <= i < |t| && t[i] == x;
      assert s[i] in s;
    }
    forall y | y in s ensures f(y) in t {
      var i :| 0 <= i < |s| && s[i] == y;
      assert t[i] == f(y);
    }
  }

  /** Row ids strictly increase along the table: inserts append a fresh, larger id. */
  ghost predicate Ascending<T>(s: seq<T>, id: T -> nat) {
    forall i, j :: 0 <= i < j < |s| ==> id(s[i]) < id(s[j])
  }

  /** A filter no row passes returns nothing. */
  lemma {:induction false} WhereNone<T(!new), K>(s: seq<T>, key: T -> K, k: K)
    requires forall x :: x in s ==> key(x) != k
    ensures Where(s, key, Some(k)) == []
  {
    if s != [] {
      assert s[0] in s;
      assert forall x :: x in s[1..] ==> x in s;
      WhereNone(s[1..], key, k);
    }
  }

  /** A filter keeps rows in store order: it distributes over concatenation. */
  lemma {:induction false} WhereConcat<T(!new), K>(a: seq<T>, b: seq<T>, key: T -> K, k: Option<K>)
    ensures Where(a + b, key, k) == Where(a, key, k) + Where(b, key, k)
  {
    if a == [] {
      assert a + b == b;
    } else {
      assert (a + b)[1..] == a[1..] + b;
      WhereConcat(a[1..], b, key, k);
    }
  }

  /** Deleting by key distributes over concatenation as well. */
  lemma {:induction false} RemoveKeyConcat<T(!new), K>(a: seq<T>, b: seq<T>, key: T -> K, k: K)
    ensures RemoveKey(a + b, key, k) == RemoveKey(a, key, k) + RemoveKey(b, key, k)
  {
    if a == [] {
      assert a + b == b;
    } else {
      assert (a + b)[1..] == a[1..] + b;
      RemoveKeyConcat(a[1..], b, key, k);
    }
  }

  /** Filtering an ascending table leaves it ascending. */
  lemma {:induction false} WhereAscending<T(!new), K>(s: seq<T>, key: T -> K, k: Option<K>, id: T -> nat)
    requires Ascending(s, id)
    ensures Ascending(Where(s, key, k), id)
  {
    if s != [] {
      WhereAscending(s[1..], key, k, id);
      var rest := Where(s[1..], key, k);
      forall x | x in rest ensures id(s[0]) < id(x) {
        var j :| 0 <= j < |s[1..]| && s[1..][j] == x;
        assert s[j + 1] == x;
      }
    }
  }

  /** Whatever the table, a filter never breaks its ascending order. */
  lemma FilterKeepsAscending<T(!new), K>(s: seq<T>, key: T -> K, k: Option<K>, id: T -> nat)
    ensures Ascending(s, id) ==> Ascending(Where(s, key, k), id)
  {
    if Ascending(s, id) {
      WhereAscending(s, key, k, id);
    }
  }

  /** Deleting from an ascending table leaves it ascending. */
  lemma {:induction false} RemoveKeyAscending<T(!new), K>(s: seq<T>, key: T -> K, k: K, id: T -> nat)
    requires Ascending(s, id)
    ensures Ascending(RemoveKey(s, key, k), id)
  {
    if s != [] {
      var tail := s[1..];
      assert Ascending(tail, id) by {
        forall i, j | 0 <= i < j < |tail| ensures id(tail[i]) < id(tail[j]) {
          assert tail[i] == s[i + 1] && tail[j] == s[j + 1];
        }
      }
      RemoveKeyAscending(tail, key, k, id);
      var rest := RemoveKey(tail, key, k);
      forall x | x in rest ensures id(s[0]) < id(x) {
        var j :| 0 <= j < |tail| && tail[j] == x;
        assert s[j + 1] == x;
      }
      if key(s[0]) != k {
        AscendingCons(s[0], rest, id);
        assert RemoveKey(s, key, k) == [s[0]] + rest;
      } else {
        assert RemoveKey(s, key, k) == rest;
      }
    }
  }

  /** In an ascending table an id names exactly one row, so deleting by the id of
      row `i` removes that row and nothing else. */
  lemma {:induction false} RemoveKeyAt<T(!new)>(s: seq<T>, id: T -> nat, i: nat)
    requires Ascending(s, id)
    requires i < |s|
    ensures RemoveKey(s, id, id(s[i])) == s[..i] + s[i + 1..]
  {
    var k := id(s[i]);
    var before, after := s[..i], s[i + 1..];
    var rest := [s[i]] + after;
    assert s == before + rest;
    forall j | 0 <= j < |before| ensures id(before[j]) != k {
      assert before[j] == s[j];
    }
    forall j | 0 <= j < |after| ensures id(after[j]) != k {
      assert after[j] == s[i + 1 + j];
    }
    assert RemoveKey(before, id, k) == before;
    assert RemoveKey(after, id, k) == after;
    assert RemoveKey([s[i]], id, k) == [] by {
      assert [s[i]][1..] == [];
    }
    RemoveKeyConcat([s[i]], after, id, k);
    assert RemoveKey(rest, id, k) == after;
    RemoveKeyConcat(before, rest, id, k);
  }

  /** Removing row `i` lowers a filter's match count by one exactly when row `i` matched. */
  lemma WhereWithout<T(!new), K>(s: seq<T>, key: T -> K, k: Option<K>, i: nat)
    requires i < |s|
    ensures |Where(s[..i] + s[i + 1..], key, k)| + (if Passes(key, k, s[i]) then 1 else 0) == |Where(s, key, k)|
  {
    assert s == s[..i] + ([s[i]] + s[i + 1..]);
    WhereConcat(s[..i], [s[i]] + s[i + 1..], key, k);
    WhereConcat([s[i]], s[i + 1..], key, k);
    WhereConcat(s[..i], s[i + 1..], key, k);
    assert [s[i]][1..] == [];
  }

  /** A row whose id is below every id of an ascending table can lead it. */
  lemma AscendingCons<T(!new)>(x: T, s: seq<T>, id: T -> nat)
    requires Ascending(s, id)
    requires forall y :: y in s ==> id(x) < id(y)
    ensures Ascending([x] + s, id)
  {
    forall i, j | 0 <= i < j < |[x] + s| ensures id(([x] + s)[i]) < id(([x] + s)[j]) {
      assert ([x] + s)[j] == s[j - 1];
      if i > 0 { assert ([x] + s)[i] == s[i - 1]; }
    }
  }

  /** Appending a row with a larger id than every existing one keeps a table ascending. */
  lemma AscendingAppend<T(!new)>(s: seq<T>, x: T, id: T -> nat)
    requires Ascending(s, id)
    requires forall y :: y in s ==> id(y) < id(x)
    ensures Ascending(s + [x], id)
  {
    forall i, j | 0 <= i < j < |s + [x]| ensures id((s + [x])[i]) < id((s + [x])[j]) {
      assert (s + [x])[i] == s[i];
      if j < |s| { assert (s + [x])[j] == s[j]; }
    }
  }

  /** In an ascending table an id names at most one row. */
  lemma AscendingUnique<T>(s: seq<T>, id: T -> nat, x: T, y: T)
    requires Ascending(s, id)
    requires x in s && y in s && id(x) == id(y)
    ensures x == y
  {
    var i :| 0 <= i < |s| && s[i] == x;
    var j :| 0 <= j < |s| && s[j] == y;
    if i < j {
      assert id(s[i]) < id(s[j]);
    } else if j < i {
      assert id(s[j]) < id(s[i]);
    }
  }
}

=== FILE: session.dfy ===
/** One websocket connection's read loop: read a frame, look up the authenticated user's
    membership of the frame's room, persist the message, broadcast it; the first error
    is reported once and ends the loop. */
module Session {
  import opened Wrappers
  import opened Db
  import opened Models
  import opened Fanout
  import Repo = RoomRepository

  /** What one turn of the loop meets: the frame read (`None` when the read or the JSON
      decoding fails, or the peer has gone), the store faults during the turn, and the
      connections whose writes fail. */
  datatype Frame = Frame(read: Option<WireMessage>, faults: Faults, broken: set<Id>)

  /** The store and the registry the loop acts on. */
  datatype State = State(db: Db, registry: Registry)

  /** The end of one turn: go round again, or stop with the error sent on the channel. */
  datatype Turn = Continue(state: State) | Stop(state: State, error: SessionError)

  /** The row to persist: the frame's room and content, attributed to the authenticated
      sender and to their membership. */
  function Attributed(msg: WireMessage, sender: User, member: RoomMember): RoomMessage {
    RoomMessage(NilId, 0, 0, msg.roomId, member.id, sender.id, msg.content)
  }

  /** `after` is `before` with one message appended: in `msg`'s room, with its content,
      from `sender`, through a membership `sender` holds in that room; nothing else of the
      store changes but the id counter and the clock. */
  ghost predicate Persisted(before: Db, after: Db, sender: User, msg: WireMessage) {
    && after.(messages := before.messages, nextId := before.nextId, clock := before.clock) == before
    && |after.messages| == |before.messages| + 1
    && after.messages[..|before.messages|] == before.messages
    && var row := after.messages[|before.messages|];
       && row.roomId == msg.roomId && row.userId == sender.id && row.content == msg.content
       && exists m :: m in before.members && m.id == row.roomMemberId && MemberPair(m) == (msg.roomId, sender.id)
  }

  /** One turn of the loop for the connection of `sender`. The frame's own `user_id` is
      never consulted. */
  function Step(s: State, sender: User, frame: Frame): (r: Turn)
    ensures r.state.registry.Keys == s.registry.Keys
    ensures frame.read.None? ==> r == Stop(s, ReadError)
    ensures frame.read.Some? && !Repo.IsMember(s.db, sender.id, frame.read.value.roomId) ==> r.Stop? && r.state == s
    ensures r.state.db != s.db ==> frame.read.Some? && Persisted(s.db, r.state.db, sender, frame.read.value)
    ensures r.state.registry != s.registry ==> r.state.db != s.db
    ensures r.Continue? ==> r.state.db != s.db
    ensures frame.read.Some? ==>
      OnlyCopies(s.registry, r.state.registry, WireMessage(frame.read.value.roomId, frame.read.value.content, sender.id))
  {
    match frame.read
    case None => NoCopies(s.registry, WireMessage(0, [], sender.id)); Stop(s, ReadError)
    case Some(msg) =>
      var out := WireMessage(msg.roomId, msg.content, sender.id);
      NoCopies(s.registry, out);
      match Repo.GetRoomMemberByWhere(s.db, frame.faults, sender.id, msg.roomId)
      case Failure(e) => Stop(s, Store(e))
      case Success(member) =>
        match Repo.CreateRoomMessage(s.db, frame.faults, Attributed(msg, sender, member))
        case Failure(e) => Stop(s, Store(e))
        case Success(saved) =>
          assert saved.db.messages[..|s.db.messages|] == s.db.messages;
          var o := Broadcast(saved.db, frame.faults, s.registry, frame.broken, sender, msg.roomId, msg.content);
          var next := State(saved.db, o.registry);
          if o.error.Some? then Stop(next, o.error.value) else Continue(next)
  }

  /** The whole loop over the frames it will read; running out of frames is the read
      error of a closed connection. Returns the final state and the one error reported. */
  function Session(s: State, sender: User, frames: seq<Frame>): (r: (State, SessionError))
    ensures r.0.registry.Keys == s.registry.Keys
    ensures r.0.db.members == s.db.members && r.0.db.rooms == s.db.rooms && r.0.db.users == s.db.users
    ensures |s.db.messages| <= |r.0.db.messages| <= |s.db.messages| + |frames|
    decreases |frames|
  {
    if frames == [] then (s, ReadError)
    else
      match Step(s, sender, frames[0])
      case Stop(next, e) => (next, e)
      case Continue(next) => Session(next, sender, frames[1..])
  }

  /** `after` is `before` followed by messages from user `id` only. */
  ghost predicate SenderAppended(before: seq<MessageRow>, after: seq<MessageRow>, id: Id) {
    && |before| <= |after|
    && after[..|before|] == before
    && forall i :: |before| <= i < |after| ==> after[i].userId == id
  }

  lemma SenderAppendedTrans(a: seq<MessageRow>, b: seq<MessageRow>, c: seq<MessageRow>, id: Id)
    requires SenderAppended(a, b, id) && SenderAppended(b, c, id)
    ensures SenderAppended(a, c, id)
  {
    assert c[..|a|] == c[..|b|][..|a|];
  }

  lemma StepSenderAppended(s: State, sender: User, frame: Frame)
    ensures SenderAppended(s.db.messages, Step(s, sender, frame).state.db.messages, sender.id)
  {
    var r := Step(s, sender, frame);
    if r.state.db != s.db {
      assert Persisted(s.db, r.state.db, sender, frame.read.value);
    }
  }

  /** A session only appends to the message table, and every message it appends is the
      authenticated sender's. */
  lemma {:induction false} SessionAppendsSenderMessages(s: State, sender: User, frames: seq<Frame>)
    ensures SenderAppended(s.db.messages, Session(s, sender, frames).0.db.messages, sender.id)
    decreases |frames|
  {
    if frames != [] {
      StepSenderAppended(s, sender, frames[0]);
      match Step(s, sender, frames[0])
      case Stop(next, e) =>
      case Continue(next) =>
        SessionAppendsSenderMessages(next, sender, frames[1..]);
        SenderAppendedTrans(s.db.messages, next.db.messages, Session(next, sender, frames[1..]).0.db.messages, sender.id);
    }
  }

  /** `run`: reads frames until a turn stops or the input ends, sending exactly one error
      on the channel, and ends in the state the loop specification gives. */
  method Run(s: State, sender: User, frames: seq<Frame>) returns (final: State, reported: seq<SessionError>)
    ensures |reported| == 1
    ensures (final, reported[0]) == Session(s, sender, frames)
  {
    var state := s;
    var i := 0;
    while i < |frames|
      invariant 0 <= i <= |frames|
      invariant Session(state, sender, frames[i..]) == Session(s, sender, frames)
    {
      assert frames[i..][1..] == frames[i + 1..];
      match Step(state, sender, frames[i])
      case Stop(next, e) =>
        return next, [e];
      case Continue(next) =>
        state := next;
        i := i + 1;
    }
    return state, [ReadError];
  }

  /** The frame's `user_id` field has no effect: the lookup, the row and the broadcast all
      use the authenticated sender. */
  lemma InboundUserIgnored(s: State, sender: User, msg: WireMessage, claimed: Id, f: Faults, broken: set<Id>)
    ensures Step(s, sender, Frame(Some(msg), f, broken)) == Step(s, sender, Frame(Some(msg.(userId := claimed)), f, broken))
  {
  }

  /** A turn with no store faults and no broken connections among the room's members goes
      round again, after persisting the message and writing it to each connected member
      once per membership, the sender included. */
  lemma StepDelivers(s: State, sender: User, msg: WireMessage, f: Faults, broken: set<Id>)
    requires Repo.IsMember(s.db, sender.id, msg.roomId)
    requires GetRoomMemberByWhereQuery !in f && CreateRoomMessageQuery !in f && GetRoomMembersQuery !in f
    requires forall u :: u in s.registry && u in broken ==> MembershipsOf(s.db, msg.roomId, u) == 0
    ensures var r := Step(s, sender, Frame(Some(msg), f, broken));
      && r.Continue?
      && Persisted(s.db, r.state.db, sender, msg)
      && forall u :: u in s.registry ==>
           r.state.registry[u] == s.registry[u] + Copies(WireMessage(msg.roomId, msg.content, sender.id), MembershipsOf(s.db, msg.roomId, u))
  {
    var member := Repo.GetRoomMemberByWhere(s.db, f, sender.id, msg.roomId).value;
    var saved := Repo.CreateRoomMessage(s.db, f, Attributed(msg, sender, member)).value;
    assert saved.db.members == s.db.members;
    BroadcastRecipients(saved.db, f, s.registry, broken, sender, msg.roomId, msg.content);
  }

  /** A turn whose broadcast meets the broken connection of a connected member of the room
      stops the loop with the write error; the message stays saved. */
  lemma StepWriteFailureStops(s: State, sender: User, msg: WireMessage, f: Faults, broken: set<Id>, u: Id)
    requires Repo.IsMember(s.db, sender.id, msg.roomId)
    requires GetRoomMemberByWhereQuery !in f && CreateRoomMessageQuery !in f && GetRoomMembersQuery !in f
    requires u in s.registry && u in broken && MembershipsOf(s.db, msg.roomId, u) > 0
    ensures var r := Step(s, sender, Frame(Some(msg), f, broken));
      && r.Stop? && r.error == WriteError
      && Persisted(s.db, r.state.db, sender, msg)
  {
    var member := Repo.GetRoomMemberByWhere(s.db, f, sender.id, msg.roomId).value;
    var saved := Repo.CreateRoomMessage(s.db, f, Attributed(msg, sender, member)).value;
    assert saved.db.members == s.db.members;
    BroadcastFailsIff(saved.db, f, s.registry, broken, sender, msg.roomId, msg.content);
  }

  /** A store failure while saving the message ends the loop before any write. */
  lemma StepPersistFailureWritesNothing(s: State, sender: User, msg: WireMessage, f: Faults, broken: set<Id>)
    requires Repo.IsMember(s.db, sender.id, msg.roomId)
    requires GetRoomMemberByWhereQuery !in f && CreateRoomMessageQuery in f
    ensures Step(s, sender, Frame(Some(msg), f, broken)) == Stop(s, Store(StoreError))
  {
  }

  /** A failure fetching the member list ends the loop with the message kept and no
      write made. */
  lemma StepMemberListFailureWritesNothing(s: State, sender: User, msg: WireMessage, f: Faults, broken: set<Id>)
    requires Repo.IsMember(s.db, sender.id, msg.roomId)
    requires GetRoomMemberByWhereQuery !in f && CreateRoomMessageQuery !in f && GetRoomMembersQuery in f
    ensures var r := Step(s, sender, Frame(Some(msg), f, broken));
      r.Stop? && r.error == Store(StoreError) && r.state.registry == s.registry && Persisted(s.db, r.state.db, sender, msg)
  {
  }
}

=== FILE: user_handlers.dfy ===
/** The account endpoints: reading one's own account, and updating or deleting it, which
    only the account's owner may do. */
module UserHandlers {
  import opened Wrappers
  import opened Db
  import UserSql
  import opened Models
  import opened ApiErrors
  import AuthHandlers

  const Unauthorized401 := ApiError(Unauthorized, UnauthorizedText)

  /** `getAccount`: the user the authenticator stored in the request, or a 401 when there is none. */
  function GetAccount(authenticated: Option<User>): (r: Result<User, ApiError>)
    ensures r.Success? <==> authenticated.Some?
    ensures r.Success? ==> r.value == authenticated.value
    ensures r.Failure? ==> r.error == ApiError(Unauthorized, "unauthorized user")
  {
    match authenticated
    case Some(u) => Success(u)
    case None => Failure(ApiError(Unauthorized, "unauthorized user"))
  }

  /** The optional fields of an account update; an absent field is `None`. */
  datatype UpdateAccountDto = UpdateAccountDto(firstName: Option<string>, lastName: Option<string>, email: Option<string>)

  /** The partial merge of `updateAccount`: present fields overwrite (the email lower-cased),
      absent ones keep their value. */
  function MergeUser(user: User, dto: UpdateAccountDto): (r: User)
    ensures dto.firstName.Some? ==> r.firstName == dto.firstName.value
    ensures dto.firstName.None? ==> r.firstName == user.firstName
    ensures dto.lastName.Some? ==> r.lastName == dto.lastName.value
    ensures dto.lastName.None? ==> r.lastName == user.lastName
    ensures dto.email.Some? ==> r.email == AuthHandlers.Lower(dto.email.value)
    ensures dto.email.None? ==> r.email == user.email
    ensures r.(firstName := user.firstName, lastName := user.lastName, email := user.email) == user
  {
    var email := if dto.email.Some? then AuthHandlers.Lower(dto.email.value) else user.email;
    user.(email := email, firstName := dto.firstName.GetOr(user.firstName), lastName := dto.lastName.GetOr(user.lastName))
  }

  /** `updateAccount`: only the caller's own account (401 otherwise); the merged record is
      stamped with the current time and written to the caller's row. */
  function UpdateAccount(db: Db, f: Faults, caller: User, pathId: Id, dto: UpdateAccountDto): (r: Result<Saved<User>, ApiError>)
    ensures pathId != caller.id ==> r == Failure(Unauthorized401)
    ensures r.Success? <==> pathId == caller.id && UpdateUserQuery !in f
    ensures r.Success? ==>
      var u := r.value.value;
      && pathId == caller.id
      && u == MergeUser(caller, dto).(updatedAt := db.clock)
      && r.value.db.clock == db.clock + 1
      && |r.value.db.users| == |db.users|
      && r.value.db.(users := db.users, clock := db.clock) == db
      && forall i :: 0 <= i < |db.users| ==>
           var was, now := db.users[i], r.value.db.users[i];
           && (was.id == caller.id ==> now == was.(firstName := u.firstName, lastName := u.lastName, email := u.email, updatedAt := db.clock))
           && (was.id != caller.id ==> now == was)
  {
    if caller.id != pathId then Failure(Unauthorized401)
    else
      var s := Tick(db);
      var merged := MergeUser(caller, dto).(updatedAt := s.now);
      match UserSql.UpdateUser(s.db, f, merged.firstName, merged.lastName, merged.email, s.now, caller.id)
      case Success(db') => Success(Saved(merged, db'))
      case Failure(e) => Failure(Internal(e))
  }

  /** `deleteAccount`: only the caller's own account (401 otherwise); deletes that user row
      and nothing else. */
  function DeleteAccount(db: Db, f: Faults, caller: User, pathId: Id): (r: Result<Db, ApiError>)
    ensures pathId != caller.id ==> r == Failure(Unauthorized401)
    ensures r.Success? <==> pathId == caller.id && DeleteUserQuery !in f
    ensures r.Success? ==>
      && pathId == caller.id
      && (forall x :: x in r.value.users <==> x in db.users && x.id != caller.id)
      && r.value.(users := db.users) == db
  {
    if caller.id != pathId then Failure(Unauthorized401)
    else
      match UserSql.DeleteUser(db, f, caller.id)
      case Success(db') => Success(db')
      case Failure(e) => Failure(Internal(e))
  }

  /** An account update keeps the store valid. */
  lemma UpdateAccountKeepsValid(db: Db, f: Faults, caller: User, pathId: Id, dto: UpdateAccountDto)
    requires Valid(db) && UpdateAccount(db, f, caller, pathId, dto).Success?
    ensures Valid(UpdateAccount(db, f, caller, pathId, dto).value.db)
  {
    var merged := MergeUser(caller, dto);
    TickKeepsValid(db);
    UserSql.UpdateUserKeepsValid(Tick(db).db, f, merged.firstName, merged.lastName, merged.email, db.clock, caller.id);
  }

  /** After deleting one's account, a lookup by that id finds nothing (unless another user
      matches the email argument), and every other user is still there. */
  lemma DeleteAccountThenGet(db: Db, f: Faults, g: Faults, caller: User, email: string)
    requires DeleteAccount(db, f, caller, caller.id).Success? && GetUserQuery !in g
    requires forall u :: u in db.users && u.id != caller.id ==> u.email != email
    ensures UserSql.GetUser(DeleteAccount(db, f, caller, caller.id).value, g, caller.id, email) == Failure(NoRows)
    ensures forall u :: u in db.users && u.id != caller.id ==> u in DeleteAccount(db, f, caller, caller.id).value.users
  {
    UserSql.GetUserAfterDelete(db, f, g, caller.id, email);
  }
}

=== FILE: user_sql.dfy ===
/** The generated account queries: users by id or email, and the password row kept
    for each user in `auths`. */
module UserSql {
  import opened Wrappers
  import opened Seqs
  import opened Db

  /** `INSERT INTO users (first_name, last_name, email) ... RETURNING created_at, updated_at, id` */
  function CreateUser(db: Db, f: Faults, firstName: string, lastName: string, email: string): (r: Result<Inserted, DbError>)
    ensures r.Failure? <==> CreateUserQuery in f
    ensures r.Failure? ==> r.error == StoreError
    ensures r.Success? ==>
      && r.value.db.users == db.users + [UserRow(r.value.id, firstName, lastName, email, r.value.createdAt, r.value.updatedAt)]
      && r.value.db.(users := db.users, nextId := db.nextId, clock := db.clock) == db
      && r.value.createdAt == r.value.updatedAt
    ensures r.Success? && Valid(db) ==> forall x :: x in db.users ==> x.id != r.value.id
  {
    if CreateUserQuery in f then Failure(StoreError)
    else
      var s := Allocate(db);
      var row := UserRow(s.id, firstName, lastName, email, s.now, s.now);
      Success(Inserted(s.id, s.now, s.now, s.db.(users := db.users + [row])))
  }

  /** `DELETE FROM users WHERE id = $1`: an absent id deletes nothing and is not an error. */
  function DeleteUser(db: Db, f: Faults, id: Id): (r: Result<Db, DbError>)
    ensures r.Failure? <==> DeleteUserQuery in f
    ensures r.Failure? ==> r.error == StoreError
    ensures r.Success? ==>
      && (forall x :: x in r.value.users <==> x in db.users && x.id != id)
      && r.value.(users := db.users) == db
      && ((forall i :: 0 <= i < |db.users| ==> db.users[i].id != id) ==> r.value == db)
  {
    if DeleteUserQuery in f then Failure(StoreError)
    else Success(db.(users := RemoveKey(db.users, UserId, id)))
  }

  /** Whether a user row satisfies `id = $1 OR email = $2`. */
  predicate IdOrEmail(u: UserRow, id: Id, email: string) {
    u.id == id || u.email == email
  }

  /** The first row in store order satisfying `id = $1 OR email = $2`. */
  function FirstIdOrEmail(users: seq<UserRow>, id: Id, email: string): (r: Option<UserRow>)
    ensures r.Some? ==> r.value in users && IdOrEmail(r.value, id, email)
    ensures r.None? <==> forall i :: 0 <= i < |users| ==> !IdOrEmail(users[i], id, email)
  {
    if users == [] then None
    else if IdOrEmail(users[0], id, email) then Some(users[0])
    else
      var r := FirstIdOrEmail(users[1..], id, email);
      assert forall i :: 1 <= i < |users| ==> users[i] == users[1..][i - 1];
      r
  }

  /** `SELECT ... FROM users WHERE id = $1 OR email = $2 LIMIT 1`: at most one row, and it
      matches the id or the email. */
  function GetUser(db: Db, f: Faults, id: Id, email: string): (r: Result<UserRow, DbError>)
    ensures r.Success? ==> r.value in db.users && (r.value.id == id || r.value.email == email)
    ensures GetUserQuery in f ==> r == Failure(StoreError)
    ensures GetUserQuery !in f ==>
      (r == Failure(NoRows) <==> forall i :: 0 <= i < |db.users| ==> db.users[i].id != id && db.users[i].email != email)
    ensures GetUserQuery !in f ==> r.Success? || r == Failure(NoRows)
  {
    if GetUserQuery in f then Failure(StoreError)
    else
      match FirstIdOrEmail(db.users, id, email)
      case Some(u) => Success(u)
      case None => Failure(NoRows)
  }

  /** `SELECT ... FROM users`: every row, in store order. */
  function GetUsers(db: Db, f: Faults): (r: Result<seq<UserRow>, DbError>)
    ensures r.Failure? <==> GetUsersQuery in f
    ensures r.Failure? ==> r.error == StoreError
    ensures r.Success? ==> r.value == db.users
  {
    if GetUsersQuery in f then Failure(StoreError) else Success(db.users)
  }

  /** A user just created is listed last, after every user listed before. */
  lemma CreateUserThenGetUsers(db: Db, f: Faults, g: Faults, firstName: string, lastName: string, email: string)
    requires CreateUser(db, f, firstName, lastName, email).Success? && GetUsersQuery !in g
    ensures var c := CreateUser(db, f, firstName, lastName, email).value;
      && GetUsers(db, g).Success?
      && GetUsers(c.db, g) == Success(GetUsers(db, g).value + [UserRow(c.id, firstName, lastName, email, c.createdAt, c.updatedAt)])
  {
  }

  /** `UPDATE users SET first_name = $1, last_name = $2, email = $3, updated_at = $4 WHERE id = $5`:
      the matching row takes the four new values and keeps its id and creation time. */
  function UpdateUser(db: Db, f: Faults, firstName: string, lastName: string, email: string, updatedAt: Time, id: Id): (r: Result<Db, DbError>)
    ensures r.Failure? <==> UpdateUserQuery in f
    ensures r.Failure? ==> r.error == StoreError
    ensures r.Success? ==>
      && |r.value.users| == |db.users|
      && r.value.(users := db.users) == db
      && forall i :: 0 <= i < |db.users| ==>
        var was, now := db.users[i], r.value.users[i];
        && now.id == was.id && now.createdAt == was.createdAt
        && (was.id == id ==> now.firstName == firstName && now.lastName == lastName && now.email == email && now.updatedAt == updatedAt)
        && (was.id != id ==> now == was)
  {
    if UpdateUserQuery in f then Failure(StoreError)
    else
      var users := seq(|db.users|, i requires 0 <= i < |db.users| =>
        if db.users[i].id == id then db.users[i].(firstName := firstName, lastName := lastName, email := email, updatedAt := updatedAt)
        else db.users[i]);
      Success(db.(users := users))
  }

  /** Inserts the password row of a user; the store assigns its id and timestamps. */
  function CreateAuth(db: Db, f: Faults, userId: Id, password: string): (r: Result<Inserted, DbError>)
    ensures r.Failure? <==> CreateAuthQuery in f
    ensures r.Failure? ==> r.error == StoreError
    ensures r.Success? ==>
      && r.value.db.auths == db.auths + [AuthRow(r.value.id, userId, password, r.value.createdAt, r.value.updatedAt)]
      && r.value.db.(auths := db.auths, nextId := db.nextId, clock := db.clock) == db
      && r.value.createdAt == r.value.updatedAt
  {
    if CreateAuthQuery in f then Failure(StoreError)
    else
      var s := Allocate(db);
      var row := AuthRow(s.id, userId, password, s.now, s.now);
      Success(Inserted(s.id, s.now, s.now, s.db.(auths := db.auths + [row])))
  }

  /** The password row of a user, looked up by its `user_id`. */
  function GetUserAuth(db: Db, f: Faults, userId: Id): (r: Result<AuthRow, DbError>)
    ensures r.Success? ==> r.value in db.auths && r.value.userId == userId
    ensures GetUserAuthQuery in f ==> r == Failure(StoreError)
    ensures GetUserAuthQuery !in f ==> (r == Failure(NoRows) <==> forall i :: 0 <= i < |db.auths| ==> db.auths[i].userId != userId)
    ensures GetUserAuthQuery !in f ==> r.Success? || r == Failure(NoRows)
  {
    if GetUserAuthQuery in f then Failure(StoreError)
    else
      match FirstWhere(db.auths, AuthUser, userId)
      case Some(a) => Success(a)
      case None => Failure(NoRows)
  }

  lemma CreateUserKeepsValid(db: Db, f: Faults, firstName: string, lastName: string, email: string)
    requires Valid(db)
    ensures var r := CreateUser(db, f, firstName, lastName, email); r.Success? ==> Valid(r.value.db)
  {
    var r := CreateUser(db, f, firstName, lastName, email);
    if r.Success? {
      WellFormedInsert(db.users, r.value.db.users[|db.users|], UserId, UserStamp, db.nextId, db.clock);
      KeepOtherTables(db, r.value.db);
    }
  }

  lemma CreateAuthKeepsValid(db: Db, f: Faults, userId: Id, password: string)
    requires Valid(db)
    ensures var r := CreateAuth(db, f, userId, password); r.Success? ==> Valid(r.value.db)
  {
    var r := CreateAuth(db, f, userId, password);
    if r.Success? {
      WellFormedInsert(db.auths, r.value.db.auths[|db.auths|], AuthId, AuthStamp, db.nextId, db.clock);
      KeepOtherTables(db, r.value.db);
    }
  }

  lemma DeleteUserKeepsValid(db: Db, f: Faults, id: Id)
    requires Valid(db)
    ensures DeleteUser(db, f, id).Success? ==> Valid(DeleteUser(db, f, id).value)
  {
    WellFormedRemove(db.users, UserId, id, UserId, UserStamp, db.nextId, db.clock);
  }

  /** An update stamped with a past clock reading keeps the store valid. */
  lemma UpdateUserKeepsValid(db: Db, f: Faults, firstName: string, lastName: string, email: string, updatedAt: Time, id: Id)
    requires Valid(db) && updatedAt < db.clock
    ensures var r := UpdateUser(db, f, firstName, lastName, email, updatedAt, id); r.Success? ==> Valid(r.value)
  {
    var r := UpdateUser(db, f, firstName, lastName, email, updatedAt, id);
    if r.Success? {
      var users := r.value.users;
      forall x | x in users ensures 1 <= x.id < db.nextId && x.updatedAt < db.clock {
        var i :| 0 <= i < |users| && users[i] == x;
        assert db.users[i] in db.users;
      }
    }
  }

  /** After `DeleteUser(id)` a lookup by that id alone finds nothing unless some other
      user matches the email argument, and the other users are untouched. */
  lemma {:induction false} GetUserAfterDelete(db: Db, f: Faults, g: Faults, id: Id, email: string)
    requires DeleteUserQuery !in f && GetUserQuery !in g
    requires forall u :: u in db.users && u.id != id ==> u.email != email
    ensures GetUser(DeleteUser(db, f, id).value, g, id, email) == Failure(NoRows)
    ensures forall u :: u in db.users && u.id != id ==> u in DeleteUser(db, f, id).value.users
  {
    var users := DeleteUser(db, f, id).value.users;
    forall i | 0 <= i < |users| ensures users[i].id != id && users[i].email != email {
      assert users[i] in users;
    }
  }

  /** The lookup scans in store order: on a table that grew by one row it finds the old
      answer, or else the new row if that one matches. */
  lemma {:induction false} FirstIdOrEmailAppend(users: seq<UserRow>, x: UserRow, id: Id, email: string)
    ensures FirstIdOrEmail(users + [x], id, email)
         == if FirstIdOrEmail(users, id, email).Some? then FirstIdOrEmail(users, id, email) else FirstIdOrEmail([x], id, email)
  {
    if users == [] {
      assert users + [x] == [x];
    } else {
      assert (users + [x])[0] == users[0];
      assert (users + [x])[1..] == users[1..] + [x];
      FirstIdOrEmailAppend(users[1..], x, id, email);
    }
  }
}

=== FILE: wrappers.dfy ===
/** Failure-compatible wrappers shared by every layer of the chat model. */
module Wrappers {

  /** An optional value: a SQL NULL parameter, an omitted JSON field, a missing row. */
  datatype Option<+T> = None | Some(value: T) {

    /** The value, or `default` when absent. */
    function GetOr(default: T): T {
      match this
      case Some(v) => v
      case None => default
    }
  }

  /** Either a value or the error that replaced it (Go's `(T, error)` pair). */
  datatype Result<+T, +E> = Success(value: T) | Failure(error: E) {

    predicate IsFailure() {
      Failure?
    }

    function PropagateFailure<U>(): Result<U, E>
      requires Failure?
    {
      Failure(error)
    }

    function Extract(): T
      requires Success?
    {
      value
    }
  }
}
